=== FILE: README.md ===
# Firmware updater over a GATT link — Dafny model

This project models the firmware-update engine of `dfu.py`: the tool that
flashes an Intel HEX image into a small device's bootloader over a Bluetooth
Low Energy link. The engine decodes the bootloader's 12-byte metadata record
into device geometry. It converts addresses to page numbers and reads the
image into address-contiguous blocks. It cuts each block into page-sized units
and, for every unit, issues a confirmed ErasePage, then raw 20-byte writes on
the buffer characteristic, then a confirmed WriteBuffer commit. The code also
holds a second way to fill the buffer, 16-byte AddBuffer commands on the call
characteristic, meant for a device without a buffer characteristic. As written
that branch is never taken: the buffer characteristic is looked up without a
default when the updater connects (dfu.py:88), and the object stored there is
always true in the test at dfu.py:180. The model keeps both fillings as
`Commands.Mode`, and everything it proves end to end is about the fast one. Every write is retried once
after a reconnect when the link is down, and a confirmed command fails unless
its one-byte status is zero.

Modules, one per component:

- `Errors` (`errors.dfy`): every exception the engine raises, as `Fault`, plus `Result` and `Option`.
- `Bytes` (`bytes.dfy`): bytes, 16-bit `struct` fields, concatenation (`Flatten`) and `range(0, len, n)` slicing (`Chunks`).
- `DeviceInfo` (`device_info.dfy`): the `'BBH4sHH'` record, its UTF-8 chip id, derived geometry and `get_page_number`.
- `Pages` (`pages.dfy`): `Block` and `split_pages`.
- `IntelHex` (`intel_hex.dfy`): `read_hex`, from one line of text to the block stream.
- `Commands` (`commands.dfy`): command packing and its inverse, and the writes for one page.
- `Channel` (`channel.dfy`): `do_dfu_write` retry, the `on_notify` / `wait_for_response` hand-off and status check, and sequential execution.
- `Updater` (`updater.dfy`): `write_hex` end to end, and the single-command requests.

Exceptions are values. `read_hex` is a generator and `write_hex` writes each
block as soon as it is handed out. So the reader returns the blocks it handed
out *and* the exception it raised after them (`Image`). A planned update is
likewise the writes issued plus the exception that stops it (`Trace`). The
reader parses every line up front (`ParseAll`). Parsing has no effects,
so this is the same as parsing each line when the loop reaches it. The
transport, the device's notifications and the reconnect outcome are
parameters (`Link`, `OpEnv`, and the `env` function of `RunOps` / `Flash`).

Where the code's behaviour is surprising, the model follows the code:

- A notification is refused only when the previous one has not been consumed by a wait. The refusal is raised in the notification thread, after the response has already been overwritten, so it does not stop the update (`Channel.OnNotify`, `Channel.SecondNotifyOverwrites`).
- Metadata decoding also fails when the chip id is not valid UTF-8, not only when the buffer has the wrong length.
- After a Start Segment Address record the base address is `None`, and the next Data record fails with a type error. This happens even when a block is open, and that open block is lost.
- An Extended Segment Address record whose payload is not exactly two bytes fails. It fails after the open block was already handed out.
- `struct.pack` of a page number or word count outside 0..65535 fails (`FieldOverflow`). For the commit this happens after the erase and fill were sent.
- End Of File records are ignored, and lines after them are still read.
- The `erase` request does not wait for a response.
- Without a response the wait blocks forever; the model reports this as `Stalled`.

## Model

| member | source | states |
|---|---|---|
| `DeviceInfo.Unpack` | dfu.py:24 | `struct.unpack('BBH4sHH')` succeeds exactly on 12-byte buffers, and what it returns packs back to the same buffer |
| `DeviceInfo.UnpackPack` | dfu.py:24 | unpacking a packed well-formed record gives the record back |
| `DeviceInfo.Decode` | dfu.py:23-30 | wrong length fails with `MetadataLength`; a 12-byte buffer succeeds iff the chip id is UTF-8 and otherwise fails with `ChipIdNotUtf8`; page size is 2^byte1; flash, app start and app size are the little-endian page counts times the page size |
| `DeviceInfo.DecodePack` | dfu.py:23-30 | decoding a packed record yields exactly the geometry the record describes |
| `DeviceInfo.SupportedIffVersionByte` | dfu.py:93-101 | the version check of dfu.py:99-101 passes exactly when the first metadata byte is 1 |
| `DeviceInfo.DecodeExample` | dfu.py:23-30 | `01 0A 10 00 "ABCD" 02 00 00 01` decodes to version 1, page 1024, flash 16384, app start 2048, app size 262144 |
| `DeviceInfo.PageNumber` | dfu.py:32-36 | succeeds iff the address is a multiple of the page size, and then page × page size = address; otherwise `NotPageAligned` |
| `DeviceInfo.PageNumberOfPageStart` | dfu.py:32-36 | `get_page_number(p * page_size) == p` for every integer p |
| `Bytes.Chunks` | dfu.py:51-52 | `ceil(len/n)` slices (the fewest strides of n that cover the input, by `CeilDivIsCeiling`), each non-empty and at most n long, all but the last exactly n |
| `Bytes.CeilDivIsCeiling` | dfu.py:51-52 | the slice count `CeilDiv(len, n)` is `ceil(len/n)`: that many strides of n cover `len`, and one fewer does not; the counts in `SplitPages` and `FillOps` are this function |
| `Bytes.FlattenChunks` | dfu.py:51-52 | the slices concatenated in order are the input |
| `Bytes.ChunkAt` | dfu.py:51-52 | slice k is `s[k*n : k*n+n]`, the slice `range(0, len, n)` names |
| `DeviceInfo.Utf8Boundaries` | dfu.py:28 | a valid UTF-8 chip id (the `decode('utf-8')` test) starts with a lead byte and ends with a byte of at most 0xBF |
| `DeviceInfo.Utf8Cases` | dfu.py:28 | stray continuation bytes, overlong forms, surrogates, code points above U+10FFFF and truncated sequences are refused; a complete three-byte sequence is accepted |
| `Pages.SplitPages` | dfu.py:46-53 | a block no longer than a page is its own single unit; otherwise `ceil(len/page)` units, unit k at `address + k*page`, each at most a page, all but the last a full page |
| `Pages.SplitPagesConserves` | dfu.py:46-53 | the units' data concatenated in order is the block's data |
| `Pages.SplitPagesSlices` | dfu.py:50-53 | unit k of a long block holds exactly `data[k*page : (k+1)*page]` |
| `Pages.SplitPagesExample` | dfu.py:46-53 | 2050 bytes on 1024-byte pages split into 1024, 1024 and 2 bytes, the last at +2048 |
| `IntelHex.Strip` | dfu.py:201 | the result is a contiguous slice of the line; everything cut off before and after it is whitespace, and a non-empty result starts and ends with a non-whitespace character |
| `IntelHex.StripEmpty` | dfu.py:201-203 | a stripped line is empty exactly when the line is all whitespace |
| `IntelHex.FromHex` | dfu.py:207 | on a string of hex digits, succeeds iff its length is even, giving half as many bytes; the first byte is the value of the first two digits |
| `IntelHex.FromHexToHex` | dfu.py:207 | `bytes.fromhex` inverts hex encoding |
| `IntelHex.DecodeRecord` | dfu.py:208-212 | fewer than 4 bytes fail (`RecordTooShort`); a payload length other than the declared one fails (`LengthMismatch`); otherwise the record's bytes are the input |
| `IntelHex.DecodeRecordBytes` | dfu.py:209-212 | a well-formed record's bytes decode back to it |
| `IntelHex.ParseLine` | dfu.py:201-212 | all-whitespace lines are skipped and only those; a non-blank line not starting with ':' fails with `MissingColon`; records returned are well-formed |
| `IntelHex.ParseFormattedLine` | dfu.py:206-212 | a formatted line parses as its bytes without the checksum decode |
| `IntelHex.ChecksumIgnored` | dfu.py:208 | two lines differing only in the checksum byte parse identically |
| `IntelHex.ParseRecordLine` | dfu.py:204-212 | formatting a record and parsing the line gives the record back |
| `IntelHex.Place` | dfu.py:213-222 | a Data record with a known base adds exactly its payload to the bytes taken in, hands nothing back, and leaves the open block ending at the record's end |
| `IntelHex.Feed` | dfu.py:213-239 | continuing, the bytes taken in grow by exactly the record's data and no emitted block is retracted; a Data record leaves the open block ending where the record ends; halting, the blocks out carry a prefix of the bytes taken in |
| `IntelHex.StepLine` | dfu.py:200-239 | one parsed line keeps the byte accounting of `Feed`, for blank and failing lines too |
| `IntelHex.DriveConserves` | dfu.py:198-242 | from any state, a successful run hands out the bytes already taken in plus every Data payload in order; a failing run hands out a prefix of that |
| `IntelHex.Drive` | dfu.py:198-242 | blocks already handed out are never taken back: the reader's output starts with every block it had emitted before the remaining lines; at the end of input the open block, if any, is handed out last and nothing is raised |
| `IntelHex.ReadHex` | dfu.py:194-242 | blocks' data concatenated equals the Data payloads concatenated when the image reads without error, and is a prefix of it otherwise |
| `IntelHex.DriveSucceeds` | dfu.py:198-237 | with the base address known, a run of blank lines, Data and End Of File records and two-byte Extended Segment Address records raises nothing |
| `IntelHex.ReadHexSucceeds` | dfu.py:194-242 | an image made only of such lines reads without error, and its blocks carry exactly its Data payloads |
| `IntelHex.DriveFailsOnBadLine` | dfu.py:200-212 | from any state, a line that does not parse makes the reader raise, at that line or before |
| `IntelHex.ReadHexFailsOnBadLine` | dfu.py:194-212 | an image with a line that does not parse never reads without error |
| `IntelHex.FeedData` | dfu.py:213-222 | a Data record extends the open block iff the block ends at base + offset; otherwise the block is handed out and a new one starts at base + offset |
| `IntelHex.FeedEndOfFile` | dfu.py:223-225 | an End Of File record changes nothing |
| `IntelHex.FeedExtendedSegment` | dfu.py:226-230 | hands out and closes the open block, then sets the base to the big-endian payload × 16; a payload not two bytes long fails after the hand-out |
| `IntelHex.FeedStartSegment` | dfu.py:231-237 | a Start Segment Address record clears the base and nothing else |
| `IntelHex.FeedDataWithoutBase` | dfu.py:213-220 | with no base a Data record fails with `NoBaseAddress`, and the open block is not handed out |
| `IntelHex.FeedUnknown` | dfu.py:238-239 | a record type above 3 fails with `UnknownRecordType` |
| `IntelHex.BlankSkipped` | dfu.py:201-203 | from any reader state, a blank line among the parsed lines changes nothing |
| `IntelHex.BlankLineSkipped` | dfu.py:201-203 | inserting a blank line anywhere leaves the result unchanged |
| `IntelHex.DataNeedsBase` | dfu.py:213-237 | once the base is unknown, a run of EOF, Start Segment and Data records fails at its first Data record, handing out no further block |
| `IntelHex.ContiguousRecordsJoin` | dfu.py:213-222 | two 16-byte Data records at 0x00 and 0x10 give one 32-byte block at 0x00 |
| `IntelHex.GapStartsNewBlock` | dfu.py:217-220 | a third record at 0x40 starts a second block at 0x40 |
| `IntelHex.StartSegmentThenDataFails` | dfu.py:231-237 | Start Segment Address then Data fails with `NoBaseAddress` instead of using base 0 |
| `Commands.Fit16` | dfu.py:187 | `16s` cuts or zero-pads to exactly 16 bytes, keeping a short chunk as its prefix |
| `Commands.Encode` | dfu.py:177-190 | packing fails exactly when a 16-bit field is out of range, with `FieldOverflow`; the first byte is the opcode |
| `Commands.DecodeEncode` | dfu.py:177-190 | every packable command reads back as itself, an AddBuffer chunk fitted to 16 bytes |
| `Commands.EncodeDecode` | dfu.py:177-190 | every byte string that reads as a command is exactly that command's packing |
| `Commands.FillOps` | dfu.py:179-187 | `ceil(len/20)` unconfirmed buffer writes of at most 20 bytes (fast) or `ceil(len/16)` unconfirmed AddBuffer commands (fallback) |
| `Commands.FastFillConserves` | dfu.py:180-183 | fast-mode writes concatenate to the page data |
| `Commands.FallbackFillConserves` | dfu.py:184-187 | fallback chunks concatenate to the page data followed only by zero padding, 16 × `ceil(len/16)` bytes in all |
| `Commands.PageOps` | dfu.py:176-190 | confirmed erase `[02 00 lo hi]`, fill, confirmed commit `[03 00 lo hi wlo whi]` with `len/4` words; an unpackable page number writes nothing; an unpackable word count fails after erase and fill |
| `Commands.PageOpsOnWire` | dfu.py:176-190 | the page's writes read back as ErasePage(p), the fill, WriteBuffer(p, len/4); only the first and last wait for a response |
| `Commands.PageOpsConserveFast` | dfu.py:176-190 | in fast mode a page's buffer writes carry exactly its data |
| `Channel.DoWrite` | dfu.py:144-151 | one write; on `NotConnectedError` one reconnect and exactly one more write; success iff one of them returns without raising; a failed reconnect raises its own error, and the second write re-raises its own exception, "not connected" or any other |
| `Channel.CheckStatus` | dfu.py:156-157 | a confirmed command succeeds iff the first response byte is zero; non-zero fails with that status |
| `Channel.OnNotify` | dfu.py:159-165 | the response is stored and the event set; the callback raises iff the event was already set |
| `Channel.Wait` | dfu.py:153-157 | with the event clear the wait never returns; otherwise it clears the event and checks the stored status |
| `Channel.HandOff` | dfu.py:153-165 | one notification per wait: the wait checks exactly that response and the callback does not raise |
| `Channel.SecondNotifyOverwrites` | dfu.py:159-165 | a second notification before the wait raises `UnexpectedResponse` in the callback, and the wait checks the second response |
| `Channel.Execute` | dfu.py:138-157 | a write succeeds iff the transport took it and, if confirmed, a zero status arrived; when the transport took a confirmed write the outcome is exactly the status check of the response, no response means `Stalled`, and an unconfirmed write does not look at responses |
| `Channel.RunOps` | dfu.py:170-190 | writes go out in order and stop at the first failure; all earlier writes succeeded, and none after it was attempted |
| `Updater.PageTrace` | dfu.py:172-177 | a unit not on a page boundary fails with `NotPageAligned` before any write; an aligned unit is exactly the page writes for page `address / page_size` |
| `Updater.UnitsTraceConservesFast` | dfu.py:170-190 | in fast mode, the planned writes for the units of a block written without error carry exactly the block's data on the buffer characteristic |
| `Updater.BlocksTraceConservesFast` | dfu.py:170-190 | in fast mode, the planned writes for blocks written without error carry exactly their data concatenated on the buffer characteristic |
| `Updater.WriteHexTrace` | dfu.py:167-190 | the planned writes are those of the blocks the reader hands out; when a page fails, the plan is exactly the blocks' plan up to that page's exception and the reader's later exception never appears; otherwise planning ends with the reader's exception, if any |
| `Updater.WriteHexConservesFast` | dfu.py:167-190 | when planning a fast-mode update raises nothing, the planned writes carry, on the buffer characteristic and in order, exactly the Data payloads of the image |
| `Updater.UnitsTraceAligned` | dfu.py:172-173 | every unit of a block written without error starts on a page boundary |
| `Updater.RunTrace` | dfu.py:170-190 | a planned update succeeds iff every write succeeds and the plan raised nothing after them; on failure, if the last write issued failed the result is that write's exception, otherwise every write was issued and the result is the plan's own exception |
| `Updater.Flash` | dfu.py:167-190 | the update succeeds iff every planned write succeeds and planning raised nothing; on failure, if the last write issued failed the result is that write's exception, otherwise every planned write was issued and the result is the exception raised while planning |
| `Updater.RequestOp` | dfu.py:106-121 | reset is the unconfirmed byte 0x01, ping the confirmed byte 0x10 and start the unconfirmed byte 0x11, all on the call characteristic; erase succeeds iff the application start is page-aligned and its page number fits 16 bits, and then is the unconfirmed `[02 00 lo hi]` for that page, failing with `NotPageAligned` or `FieldOverflow` otherwise |
| `Updater.EraseAppTargetsAppStart` | dfu.py:109-112 | for decoded geometry the erase request erases exactly the application's start page |

## Left out

- Device discovery, connection set-up, service resolution and the D-Bus / BlueZ transport are I/O over a foreign library. The transport appears only as the outcomes in `Link` and `OpEnv`.
- The console relay and everything else outside `dfu.py` is not part of this model.
- Command-line dispatch, `help` and `main` are not modelled. The refusal of bootloader versions other than 1 is the predicate `DeviceInfo.Supported`; the exit it causes is not modelled.
- Opening the image file is not modelled. The reader receives the file's lines, and newline translation is assumed done.
- Timing, throughput, `print_info` and the per-page progress line of dfu.py:174 are left out: they are floating point and console output.
- The threading `Event` is reduced to the single slot of `Channel.Slot`. Cross-thread timing is not modelled.
- The 0.5 s slow-write check of the transport is folded into `LinkDown`. That check raises after the write has already returned, so a write retried after it may have reached the device already, and a buffer chunk can then be written twice. The model's writes are the planned ones; what arrives at the device is not modelled.
- Channel.Execute: each confirmed write waits on a freshly cleared slot. A stray notification that the device might send for an unconfirmed write, and that a later wait would consume, is not carried from write to write.
- DeviceInfo.Decode: the chip id is kept as its validated UTF-8 bytes, not converted to a string of code points.
- DeviceInfo.PageNumber: the address is divided exactly. The source divides in floating point, which loses precision for addresses beyond 2^53.
- Pages.SplitPages: requires a positive page size. The only caller passes `2**exponent`, so the source's behaviour for zero or negative sizes is not modelled.
- Commands.FillOps: the `Fallback` filling models a branch of the code that is never reached as written (see the top of this file); it is kept so that the 16-byte AddBuffer packing is stated, but no end-to-end property is proved for it.
- Updater.WriteHexConservesFast: end-to-end byte conservation is stated for fast mode only. Fallback mode pads the last chunk of each page, and its conservation is stated per page by `Commands.FallbackFillConserves`.

=== FILE: bytes.dfy ===
/** Byte strings as the updater handles them: octets, the 16-bit fields that
    `struct` packs and unpacks, concatenation of byte strings and slicing a
    byte string into bounded chunks (`for i in range(0, len(s), n): s[i:i+n]`). */
module Bytes {

  /** One element of a Python `bytes` value. */
  type byte = b: int | 0 <= b < 256

  /** One more than the largest value a `struct` `H` field holds. */
  const U16_LIMIT: int := 0x1_0000

  /** A 16-bit field in little-endian order, as native `H` lays it out on the usual host. */
  function Le16(v: int): (r: seq<byte>)
    requires 0 <= v < U16_LIMIT
    ensures |r| == 2
  {
    [v % 256, v / 256]
  }

  /** The value of a little-endian 16-bit field. */
  function ReadLe16(lo: byte, hi: byte): (v: int)
    ensures 0 <= v < U16_LIMIT
  {
    lo + 256 * hi
  }

  /** The value of a big-endian 16-bit field (`struct` `>H`). */
  function ReadBe16(hi: byte, lo: byte): (v: int)
    ensures 0 <= v < U16_LIMIT
  {
    256 * hi + lo
  }

  lemma Le16RoundTrip(v: int)
    requires 0 <= v < U16_LIMIT
    ensures ReadLe16(Le16(v)[0], Le16(v)[1]) == v
  {
  }

  lemma ReadLe16RoundTrip(lo: byte, hi: byte)
    ensures Le16(ReadLe16(lo, hi)) == [lo, hi]
  {
  }

  /** The concatenation, in order, of a sequence of sequences. */
  function Flatten<T>(ss: seq<seq<T>>): seq<T>
  {
    if ss == [] then [] else ss[0] + Flatten(ss[1..])
  }

  lemma FlattenCons<T>(x: seq<T>, rest: seq<seq<T>>)
    ensures Flatten([x] + rest) == x + Flatten(rest)
  {
    assert ([x] + rest)[0] == x;
    assert ([x] + rest)[1..] == rest;
  }

  lemma {:induction false} FlattenAppend<T>(a: seq<seq<T>>, b: seq<seq<T>>)
    ensures Flatten(a + b) == Flatten(a) + Flatten(b)
    decreases |a|
  {
    if a == [] {
      assert a + b == b;
    } else {
      assert (a + b)[1..] == a[1..] + b;
      FlattenAppend(a[1..], b);
    }
  }

  /** `a` is an initial part of `b`. */
  predicate IsPrefix<T(==)>(a: seq<T>, b: seq<T>)
  {
    |a| <= |b| && b[..|a|] == a
  }

  lemma PrefixOfAppend<T>(a: seq<T>, b: seq<T>, c: seq<T>)
    requires IsPrefix(a, b)
    ensures IsPrefix(a, b + c)
  {
    assert (b + c)[..|a|] == b[..|a|];
  }

  lemma AppendAssoc<T>(a: seq<T>, b: seq<T>, c: seq<T>)
    ensures (a + b) + c == a + (b + c)
  {
  }

  lemma PrefixTrans<T>(a: seq<T>, b: seq<T>, c: seq<T>)
    requires IsPrefix(a, b) && IsPrefix(b, c)
    ensures IsPrefix(a, c)
  {
    assert c[..|a|] == c[..|b|][..|a|];
  }

  /** `f` applied to every element, in order. */
  function Map<A, B>(f: A -> B, s: seq<A>): (r: seq<B>)
    ensures |r| == |s|
    ensures forall k | 0 <= k < |s| :: r[k] == f(s[k])
  {
    seq(|s|, k requires 0 <= k < |s| => f(s[k]))
  }

  lemma MapTwo<A, B>(f: A -> B, a: A, b: A)
    ensures Map(f, [a, b]) == [f(a), f(b)]
  {
  }

  lemma MapThree<A, B>(f: A -> B, a: A, b: A, c: A)
    ensures Map(f, [a, b, c]) == [f(a), f(b), f(c)]
  {
  }

  lemma MapAppend<A, B>(f: A -> B, a: seq<A>, b: seq<A>)
    ensures Map(f, a + b) == Map(f, a) + Map(f, b)
  {
    var x, y := Map(f, a + b), Map(f, a) + Map(f, b);
    forall k | 0 <= k < |x|
      ensures x[k] == y[k]
    {
      if k < |a| {
        assert (a + b)[k] == a[k];
      } else {
        assert (a + b)[k] == b[k - |a|];
      }
    }
  }

  function Min(a: int, b: int): int
  {
    if a <= b then a else b
  }

  /** The number of `n`-sized strides needed to cover `len` items: `ceil(len / n)`. */
  function CeilDiv(len: nat, n: nat): nat
    requires n > 0
    decreases len
  {
    if len == 0 then 0 else 1 + CeilDiv(if len <= n then 0 else len - n, n)
  }

  /** `CeilDiv(len, n)` is the least count of `n`-sized strides that covers `len`. */
  lemma {:induction false} CeilDivIsCeiling(len: nat, n: nat)
    requires n > 0
    ensures CeilDiv(len, n) * n >= len
    ensures CeilDiv(len, n) == 0 || (CeilDiv(len, n) - 1) * n < len
    decreases len
  {
    if len > n {
      CeilDivIsCeiling(len - n, n);
      var c := CeilDiv(len - n, n);
      assert (c + 1) * n == c * n + n;
      assert c == 0 || (c - 1) * n + n == c * n;
    }
  }

  lemma SliceOfSuffix<T>(s: seq<T>, n: nat, i: nat, m: nat)
    requires n <= |s|
    requires i <= m <= |s| - n
    ensures s[n..][i..m] == s[n + i .. n + m]
  {
  }

  /** Taking `n` elements of the suffix that starts at `lead` is the slice
      `s[lead .. lead + n]`, element by element as well as as a whole. */
  lemma PrefixOfSuffix<T>(s: seq<T>, lead: nat, n: nat)
    requires lead + n <= |s|
    ensures s[lead..][..n] == s[lead .. lead + n]
    ensures forall i | lead <= i < |s| :: s[lead..][i - lead] == s[i]
  {
  }

  lemma MulPred(k: nat, n: nat)
    requires k > 0
    ensures (k - 1) * n + n == k * n
  {
  }

  /** The slices `s[i:i+n]` for `i` in `range(0, len(s), n)`: there are
      `ceil(|s| / n)` of them, every one non-empty and at most `n` long, all
      but the last exactly `n` long. */
  function Chunks<T>(s: seq<T>, n: nat): (r: seq<seq<T>>)
    requires n > 0
    ensures |r| == CeilDiv(|s|, n)
    ensures |s| <= |r| * n && (r == [] || (|r| - 1) * n < |s|)
    ensures forall k | 0 <= k < |r| :: 0 < |r[k]| <= n
    ensures forall k | 0 <= k < |r| - 1 :: |r[k]| == n
    decreases |s|
  {
    CeilDivIsCeiling(|s|, n);
    if |s| == 0 then []
    else if |s| <= n then [s]
    else
      [s[..n]] + Chunks(s[n..], n)
  }

  /** The chunks, concatenated in order, are the whole of `s`: no byte lost, repeated or moved. */
  lemma {:induction false} FlattenChunks<T>(s: seq<T>, n: nat)
    requires n > 0
    ensures Flatten(Chunks(s, n)) == s
    decreases |s|
  {
    if |s| > n {
      FlattenChunks(s[n..], n);
      assert Chunks(s, n) == [s[..n]] + Chunks(s[n..], n);
      FlattenCons(s[..n], Chunks(s[n..], n));
      assert s[..n] + s[n..] == s;
    } else if |s| > 0 {
      FlattenCons(s, []);
    }
  }

  /** Past the first chunk, the chunks of `s` are those of `s[n..]`. */
  lemma ChunkOfSuffix<T>(s: seq<T>, n: nat, k: nat)
    requires n > 0 && |s| > n && 0 < k < |Chunks(s, n)|
    ensures k - 1 < |Chunks(s[n..], n)|
    ensures Chunks(s, n)[k] == Chunks(s[n..], n)[k - 1]
  {
    assert Chunks(s, n) == [s[..n]] + Chunks(s[n..], n);
  }

  /** One stride of `ChunkAt`: chunk `k` of `s` is chunk `k - 1` of `s[n..]`. */
  lemma ChunkAtStep<T>(s: seq<T>, n: nat, k: nat, i: nat, j: nat)
    requires n > 0 && |s| > n && 0 < k < |Chunks(s, n)|
    requires i < |s| - n && j == i + n
    requires Chunks(s[n..], n)[k - 1] == s[n..][i .. Min(i + n, |s| - n)]
    ensures j < |s|
    ensures Chunks(s, n)[k] == s[j .. Min(j + n, |s|)]
  {
    ChunkOfSuffix(s, n, k);
    var m := Min(i + n, |s| - n);
    assert n + m == Min(j + n, |s|);
    SliceOfSuffix(s, n, i, m);
  }

  /** Chunk `k` is the slice of `s` starting at `k * n`, as `range(0, len(s), n)` produces it. */
  lemma {:induction false} ChunkAt<T>(s: seq<T>, n: nat, k: nat)
    requires n > 0
    requires k < |Chunks(s, n)|
    ensures k * n < |s|
    ensures Chunks(s, n)[k] == s[k * n .. Min(k * n + n, |s|)]
    decreases |s|
  {
    if k == 0 {
      assert k * n == 0;
    } else {
      ChunkOfSuffix(s, n, k);
      ChunkAt(s[n..], n, k - 1);
      MulPred(k, n);
      ChunkAtStep(s, n, k, (k - 1) * n, k * n);
    }
  }
}

=== FILE: channel.dfy ===
/** Talking to the bootloader (`do_dfu_write`, `wait_for_response` and
    `on_notify` in dfu.py): a write that reconnects and retries once when the
    link is down, the hand-off of a notification to the waiting update, and
    the one-byte status check. The transport's behaviour is an input: what
    each write, the reconnect and the device's notification turn out to be. */
module Channel {
  import opened Bytes
  import opened Errors
  import opened Commands

  /** How one `char.write(value)` ends. */
  datatype Attempt =
    | Delivered
    /** `NotConnectedError`. */
    | LinkDown
    /** Any other exception from the transport. */
    | Broken

  /** What the transport does during one `do_dfu_write`: the first write, then
      (only if that one found the link down) the reconnect and the second write. */
  datatype Link = Link(first: Attempt, reconnects: bool, second: Attempt)

  /** How many writes were attempted, whether a reconnect was attempted, and the
      exception the write raised, if any. */
  datatype WriteReport = WriteReport(writes: nat, reconnected: bool, fault: Option<Fault>)

  /** `do_dfu_write`: a write found the link down reconnects and writes exactly
      once more; any other failure, a failed reconnect, or a second failure
      propagates. */
  function DoWrite(link: Link): (r: WriteReport)
    ensures r.reconnected <==> link.first == LinkDown
    ensures r.writes == (if link.first == LinkDown && link.reconnects then 2 else 1)
    ensures r.fault.None? <==>
      link.first == Delivered || (link.first == LinkDown && link.reconnects && link.second == Delivered)
    ensures link.first == Broken ==> r.fault == Some(TransportFailure)
    ensures link.first == LinkDown && !link.reconnects ==> r.fault == Some(ReconnectFailed)
    ensures link.first == LinkDown && link.reconnects && link.second == LinkDown ==> r.fault == Some(NotConnected)
    ensures link.first == LinkDown && link.reconnects && link.second == Broken ==> r.fault == Some(TransportFailure)
  {
    match link.first
    case Delivered => WriteReport(1, false, None)
    case Broken => WriteReport(1, false, Some(TransportFailure))
    case LinkDown =>
      if !link.reconnects then WriteReport(1, true, Some(ReconnectFailed))
      else
        match link.second
        case Delivered => WriteReport(2, true, None)
        case LinkDown => WriteReport(2, true, Some(NotConnected))
        case Broken => WriteReport(2, true, Some(TransportFailure))
  }

  /** The status check of `wait_for_response`: the command succeeded exactly
      when the response's first byte is zero; an empty response fails too. */
  function CheckStatus(response: seq<byte>): (r: Option<Fault>)
    ensures r.None? <==> |response| > 0 && response[0] == 0
    ensures |response| > 0 && response[0] != 0 ==> r == Some(CommandRejected(response[0]))
    ensures |response| == 0 ==> r == Some(EmptyResponse)
  {
    if |response| == 0 then Some(EmptyResponse)
    else if response[0] != 0 then Some(CommandRejected(response[0]))
    else None
  }

  /** The single-slot hand-off between the notification callback and the
      waiting update: the event flag and the last response stored. */
  datatype Slot = Slot(isSet: bool, response: seq<byte>)

  /** `on_notify`: the response is stored first; then, if the event was still
      set (the previous response not yet consumed), the callback raises, in
      the notification thread rather than in the update. Either way the event
      ends set. */
  function OnNotify(s: Slot, value: seq<byte>): (r: (Slot, Option<Fault>))
    ensures r.0 == Slot(true, value)
    ensures r.1.Some? <==> s.isSet
    ensures r.1.Some? ==> r.1 == Some(UnexpectedResponse)
  {
    (Slot(true, value), if s.isSet then Some(UnexpectedResponse) else None)
  }

  /** The slot after `wait_for_response`, and what the wait raised. */
  datatype Waited = Waited(slot: Slot, fault: Option<Fault>)

  /** `wait_for_response`: with the event clear it blocks forever (there is no
      timeout); otherwise it clears the event and checks the stored response. */
  function Wait(s: Slot): (r: Waited)
    ensures !s.isSet ==> r == Waited(s, Some(Stalled))
    ensures s.isSet ==> r.slot == s.(isSet := false) && r.fault == CheckStatus(s.response)
  {
    if !s.isSet then Waited(s, Some(Stalled)) else Waited(s.(isSet := false), CheckStatus(s.response))
  }

  /** One notification per wait: the wait sees exactly that notification's
      status, the callback does not raise, and the slot is clear again. */
  lemma HandOff(s: Slot, value: seq<byte>)
    requires !s.isSet
    ensures OnNotify(s, value).1.None?
    ensures Wait(OnNotify(s, value).0) == Waited(Slot(false, value), CheckStatus(value))
  {
  }

  /** Two notifications before one wait: the second callback raises, and the
      wait checks the second response; the first one is lost. */
  lemma SecondNotifyOverwrites(s: Slot, first: seq<byte>, second: seq<byte>)
    requires !s.isSet
    ensures OnNotify(OnNotify(s, first).0, second).1 == Some(UnexpectedResponse)
    ensures Wait(OnNotify(OnNotify(s, first).0, second).0).fault == CheckStatus(second)
  {
  }

  /** What the transport and the device do for one write: the link's
      behaviour, and the notification the device sends back, if any. */
  datatype OpEnv = OpEnv(link: Link, notification: Option<seq<byte>>)

  /** `do_dfu_write`, then for a confirmed write the notification hand-off and
      `wait_for_response`. The write succeeds exactly when the transport took
      it and, if confirmed, the device answered with a zero status. */
  function Execute(op: Op, env: OpEnv): (r: Option<Fault>)
    ensures r.None? <==>
      && DoWrite(env.link).fault.None?
      && (op.confirmed ==> env.notification.Some? && CheckStatus(env.notification.value).None?)
    ensures DoWrite(env.link).fault.Some? ==> r == DoWrite(env.link).fault
    ensures DoWrite(env.link).fault.None? && op.confirmed && env.notification.None? ==> r == Some(Stalled)
    ensures DoWrite(env.link).fault.None? && op.confirmed && env.notification.Some? ==>
      r == CheckStatus(env.notification.value)
    ensures DoWrite(env.link).fault.None? && !op.confirmed ==> r.None?
  {
    var written := DoWrite(env.link);
    if written.fault.Some? then written.fault
    else if !op.confirmed then None
    else
      match env.notification
      case None => Some(Stalled)
      case Some(value) =>
        var idle := Slot(false, []);
        HandOff(idle, value);
        Wait(OnNotify(idle, value).0).fault
  }

  /** Issues the writes in order and stops at the first that fails: `issued`
      writes were attempted, all but a failing last one succeeded, and none
      after the failure was attempted. */
  method RunOps(ops: seq<Op>, env: nat -> OpEnv) returns (issued: nat, fault: Option<Fault>)
    ensures issued <= |ops|
    ensures fault.None? ==> issued == |ops|
    ensures fault.Some? ==> 0 < issued && Execute(ops[issued - 1], env(issued - 1)) == fault
    ensures forall k | 0 <= k < issued && !(fault.Some? && k == issued - 1) :: Execute(ops[k], env(k)).None?
  {
    issued := 0;
    fault := None;
    while issued < |ops| && fault.None?
      invariant issued <= |ops|
      invariant fault.Some? ==> 0 < issued && Execute(ops[issued - 1], env(issued - 1)) == fault
      invariant forall k | 0 <= k < issued && !(fault.Some? && k == issued - 1) :: Execute(ops[k], env(k)).None?
    {
      fault := Execute(ops[issued], env(issued));
      issued := issued + 1;
    }
  }
}

=== FILE: commands.dfy ===
/** The bootloader's command vocabulary and the byte layouts `struct.pack`
    gives each command in dfu.py, together with the sequence of writes the
    updater issues for one page: erase, fill the device's buffer, commit. */
module Commands {
  import opened Bytes
  import opened Errors
  import opened Pages

  const COMMAND_RESET: byte := 0x01
  const COMMAND_ERASE_PAGE: byte := 0x02
  const COMMAND_WRITE_BUFFER: byte := 0x03
  const COMMAND_ADD_BUFFER: byte := 0x04
  const COMMAND_PING: byte := 0x10
  const COMMAND_START: byte := 0x11

  /** Payload bytes per AddBuffer command (`16s`). */
  const ADD_BUFFER_CHUNK: nat := 16
  /** Bytes per raw write to the fast buffer characteristic. */
  const FAST_CHUNK: nat := 20

  datatype Command =
    | Reset
    | ErasePage(page: int)
    | WriteBuffer(page: int, words: int)
    | AddBuffer(chunk: seq<byte>)
    | Ping
    | Start

  predicate InU16(v: int)
  {
    0 <= v < U16_LIMIT
  }

  /** Every `H` field of the command is in range, so `struct.pack` succeeds. */
  predicate Packable(c: Command)
  {
    match c
    case ErasePage(page) => InU16(page)
    case WriteBuffer(page, words) => InU16(page) && InU16(words)
    case _ => true
  }

  /** `struct` `16s`: the chunk cut or zero-padded to exactly 16 bytes. */
  function Fit16(chunk: seq<byte>): (r: seq<byte>)
    ensures |r| == ADD_BUFFER_CHUNK
    ensures |chunk| <= ADD_BUFFER_CHUNK ==> r[..|chunk|] == chunk
    ensures forall i | |chunk| <= i < ADD_BUFFER_CHUNK :: r[i] == 0
    ensures |chunk| >= ADD_BUFFER_CHUNK ==> r == chunk[..ADD_BUFFER_CHUNK]
  {
    if |chunk| >= ADD_BUFFER_CHUNK then chunk[..ADD_BUFFER_CHUNK]
    else chunk + seq(ADD_BUFFER_CHUNK - |chunk|, _ => 0)
  }

  /** `struct.pack('BBH16s', COMMAND_ADD_BUFFER, 0, 0, chunk)`. */
  function AddBufferBytes(chunk: seq<byte>): (r: seq<byte>)
    ensures |r| == 4 + ADD_BUFFER_CHUNK
  {
    [COMMAND_ADD_BUFFER, 0] + Le16(0) + Fit16(chunk)
  }

  /** The `struct.pack` call dfu.py makes for each command (`'B'`, `'BBH'`,
      `'BBHH'`, `'BBH16s'`, native little-endian and unpadded); it fails only
      when a 16-bit field is out of range. */
  function Encode(c: Command): (r: Result<seq<byte>>)
    ensures r.Ok? <==> Packable(c)
    ensures r.Err? ==> r.fault == FieldOverflow
    ensures r.Ok? ==> |r.value| > 0 && r.value[0] == Opcode(c)
  {
    match c
    case Reset => Ok([COMMAND_RESET])
    case ErasePage(page) =>
      if InU16(page) then Ok([COMMAND_ERASE_PAGE, 0] + Le16(page)) else Err(FieldOverflow)
    case WriteBuffer(page, words) =>
      if InU16(page) && InU16(words) then Ok([COMMAND_WRITE_BUFFER, 0] + Le16(page) + Le16(words))
      else Err(FieldOverflow)
    case AddBuffer(chunk) => Ok(AddBufferBytes(chunk))
    case Ping => Ok([COMMAND_PING])
    case Start => Ok([COMMAND_START])
  }

  function Opcode(c: Command): byte
  {
    match c
    case Reset => COMMAND_RESET
    case ErasePage(_) => COMMAND_ERASE_PAGE
    case WriteBuffer(_, _) => COMMAND_WRITE_BUFFER
    case AddBuffer(_) => COMMAND_ADD_BUFFER
    case Ping => COMMAND_PING
    case Start => COMMAND_START
  }

  /** Reading a command back from its bytes: the opcode, a zero reserved byte,
      then the little-endian fields the opcode calls for and nothing more. */
  function Decode(bs: seq<byte>): Option<Command>
  {
    if bs == [COMMAND_RESET] then Some(Reset)
    else if bs == [COMMAND_PING] then Some(Ping)
    else if bs == [COMMAND_START] then Some(Start)
    else if |bs| == 4 && bs[0] == COMMAND_ERASE_PAGE && bs[1] == 0 then
      Some(ErasePage(ReadLe16(bs[2], bs[3])))
    else if |bs| == 6 && bs[0] == COMMAND_WRITE_BUFFER && bs[1] == 0 then
      Some(WriteBuffer(ReadLe16(bs[2], bs[3]), ReadLe16(bs[4], bs[5])))
    else if |bs| == 4 + ADD_BUFFER_CHUNK && bs[..4] == [COMMAND_ADD_BUFFER, 0, 0, 0] then
      Some(AddBuffer(bs[4..]))
    else None
  }

  /** The form a command takes on the wire: an AddBuffer chunk is 16 bytes. */
  function OnWire(c: Command): Command
  {
    match c
    case AddBuffer(chunk) => AddBuffer(Fit16(chunk))
    case _ => c
  }

  /** Every packable command reads back as itself (its chunk fitted to 16 bytes). */
  lemma DecodeEncode(c: Command)
    requires Packable(c)
    ensures Decode(Encode(c).value) == Some(OnWire(c))
  {
    match c
    case ErasePage(page) => Le16RoundTrip(page);
    case WriteBuffer(page, words) =>
      Le16RoundTrip(page);
      Le16RoundTrip(words);
    case AddBuffer(chunk) =>
      var bs := AddBufferBytes(chunk);
      assert bs[..4] == [COMMAND_ADD_BUFFER, 0, 0, 0];
      assert bs[4..] == Fit16(chunk);
    case _ =>
  }

  /** Every byte string that reads as a command is exactly that command's packing. */
  lemma EncodeDecode(bs: seq<byte>)
    requires Decode(bs).Some?
    ensures Packable(Decode(bs).value)
    ensures Encode(Decode(bs).value) == Ok(bs)
  {
    if |bs| == 4 && bs[0] == COMMAND_ERASE_PAGE && bs[1] == 0 {
      ReadLe16RoundTrip(bs[2], bs[3]);
      assert bs == [bs[0], bs[1]] + [bs[2], bs[3]];
    } else if |bs| == 6 && bs[0] == COMMAND_WRITE_BUFFER && bs[1] == 0 {
      ReadLe16RoundTrip(bs[2], bs[3]);
      ReadLe16RoundTrip(bs[4], bs[5]);
      assert bs == [bs[0], bs[1]] + [bs[2], bs[3]] + [bs[4], bs[5]];
    } else if |bs| == 4 + ADD_BUFFER_CHUNK && bs[..4] == [COMMAND_ADD_BUFFER, 0, 0, 0] {
      assert Fit16(bs[4..]) == bs[4..];
      assert Le16(0) == [0, 0];
      assert bs == [COMMAND_ADD_BUFFER, 0] + Le16(0) + bs[4..];
    }
  }

  // ---------------------------------------------------------------------------
  // Writes

  /** The two characteristics commands and buffer data are written to. */
  datatype Target = CallCharacteristic | BufferCharacteristic

  /** One `do_dfu_write`, and whether the updater then waits for the response. */
  datatype Op = Op(target: Target, value: seq<byte>, confirmed: bool)

  /** How page data reaches the device's buffer. `Fast` is raw 20-byte writes
      to the buffer characteristic, the path the code always takes: the
      characteristic is looked up without a default when the updater connects,
      and the object found is always true in a test. `Fallback` is the 16-byte
      AddBuffer commands on the call characteristic that the code keeps for
      a device without a buffer characteristic; as written that branch is never
      reached. */
  datatype Mode = Fast | Fallback

  /** The writes issued, in order, and the exception raised after them, if any. */
  datatype Trace = Trace(ops: seq<Op>, fault: Option<Fault>)

  /** Running `t` and then, if it did not raise, `u`. */
  function Then(t: Trace, u: Trace): (r: Trace)
    ensures t.fault.Some? ==> r == t
    ensures t.fault.None? ==> r.ops == t.ops + u.ops && r.fault == u.fault
  {
    if t.fault.Some? then t else Trace(t.ops + u.ops, u.fault)
  }

  /** The writes that fill the device's buffer with `data`: `ceil(len / 20)`
      raw writes of at most 20 bytes in fast mode, `ceil(len / 16)` AddBuffer
      commands in fallback mode; none of them waits for a response. */
  function FillOps(data: seq<byte>, mode: Mode): (ops: seq<Op>)
    ensures mode == Fast ==> |ops| == CeilDiv(|data|, FAST_CHUNK)
    ensures mode == Fallback ==> |ops| == CeilDiv(|data|, ADD_BUFFER_CHUNK)
    ensures forall k | 0 <= k < |ops| :: !ops[k].confirmed
    ensures mode == Fast ==> forall k | 0 <= k < |ops| ::
      ops[k].target == BufferCharacteristic && 0 < |ops[k].value| <= FAST_CHUNK
    ensures mode == Fallback ==> forall k | 0 <= k < |ops| ::
      ops[k].target == CallCharacteristic && Decode(ops[k].value).Some? && Decode(ops[k].value).value.AddBuffer?
  {
    if mode == Fast then
      var cs := Chunks(data, FAST_CHUNK);
      seq(|cs|, k requires 0 <= k < |cs| => Op(BufferCharacteristic, cs[k], false))
    else
      var cs := Chunks(data, ADD_BUFFER_CHUNK);
      AddBufferOnWire(cs);
      seq(|cs|, k requires 0 <= k < |cs| => Op(CallCharacteristic, AddBufferBytes(cs[k]), false))
  }

  lemma AddBufferOnWire(cs: seq<seq<byte>>)
    ensures forall k | 0 <= k < |cs| :: Decode(AddBufferBytes(cs[k])) == Some(AddBuffer(Fit16(cs[k])))
  {
    forall k | 0 <= k < |cs|
      ensures Decode(AddBufferBytes(cs[k])) == Some(AddBuffer(Fit16(cs[k])))
    {
      DecodeEncode(AddBuffer(cs[k]));
    }
  }

  /** The buffer bytes each write carries: the value of a raw buffer write, the
      16-byte chunk of an AddBuffer command, nothing for any other write. */
  function Payload(op: Op): seq<byte>
  {
    if op.target == BufferCharacteristic then op.value
    else if |op.value| == 4 + ADD_BUFFER_CHUNK && op.value[0] == COMMAND_ADD_BUFFER then op.value[4..]
    else []
  }

  function Payloads(ops: seq<Op>): (r: seq<seq<byte>>)
    ensures |r| == |ops|
    ensures forall k | 0 <= k < |ops| :: r[k] == Payload(ops[k])
  {
    seq(|ops|, k requires 0 <= k < |ops| => Payload(ops[k]))
  }

  lemma PayloadsAppend(a: seq<Op>, b: seq<Op>)
    ensures Flatten(Payloads(a + b)) == Flatten(Payloads(a)) + Flatten(Payloads(b))
  {
    assert Payloads(a + b) == Payloads(a) + Payloads(b);
    FlattenAppend(Payloads(a), Payloads(b));
  }

  /** In fast mode the buffer writes carry the data exactly, in order. */
  lemma FastFillConserves(data: seq<byte>)
    ensures Flatten(Payloads(FillOps(data, Fast))) == data
  {
    assert Payloads(FillOps(data, Fast)) == Chunks(data, FAST_CHUNK);
    FlattenChunks(data, FAST_CHUNK);
  }

  /** In fallback mode the AddBuffer chunks carry the data, in order, followed
      only by the zero padding of the last chunk. */
  lemma FallbackFillConserves(data: seq<byte>)
    ensures var carried := Flatten(Payloads(FillOps(data, Fallback)));
      && |carried| == ADD_BUFFER_CHUNK * CeilDiv(|data|, ADD_BUFFER_CHUNK)
      && IsPrefix(data, carried)
      && forall i | |data| <= i < |carried| :: carried[i] == 0
  {
    var cs := Chunks(data, ADD_BUFFER_CHUNK);
    assert Payloads(FillOps(data, Fallback)) == FitAll(cs);
    FitAllCarries(data);
  }

  function FitAll(cs: seq<seq<byte>>): (r: seq<seq<byte>>)
    ensures |r| == |cs|
    ensures forall k | 0 <= k < |cs| :: r[k] == Fit16(cs[k])
  {
    seq(|cs|, k requires 0 <= k < |cs| => Fit16(cs[k]))
  }

  lemma {:induction false} FitAllCarries(data: seq<byte>)
    ensures var carried := Flatten(FitAll(Chunks(data, ADD_BUFFER_CHUNK)));
      && |carried| == ADD_BUFFER_CHUNK * CeilDiv(|data|, ADD_BUFFER_CHUNK)
      && IsPrefix(data, carried)
      && forall i | |data| <= i < |carried| :: carried[i] == 0
    decreases |data|
  {
    var cs := Chunks(data, ADD_BUFFER_CHUNK);
    var carried := Flatten(FitAll(cs));
    if |data| == 0 {
      assert cs == [];
    } else if |data| <= ADD_BUFFER_CHUNK {
      assert FitAll(cs) == [Fit16(data)];
      assert FitAll(cs)[1..] == [];
      assert carried == Fit16(data) + Flatten([]);
    } else {
      var rest := data[ADD_BUFFER_CHUNK..];
      FitAllCarries(rest);
      assert cs == [data[..ADD_BUFFER_CHUNK]] + Chunks(rest, ADD_BUFFER_CHUNK);
      var head := data[..ADD_BUFFER_CHUNK];
      assert Fit16(head) == head;
      assert FitAll(cs) == [head] + FitAll(Chunks(rest, ADD_BUFFER_CHUNK));
      var tail := Flatten(FitAll(Chunks(rest, ADD_BUFFER_CHUNK)));
      assert carried == head + tail;
      assert head + rest == data;
      assert carried[..|data|] == head + tail[..|rest|];
      forall i | |data| <= i < |carried|
        ensures carried[i] == 0
      {
        assert carried[i] == tail[i - ADD_BUFFER_CHUNK];
      }
    }
  }

  // ---------------------------------------------------------------------------
  // One page

  /** The writes for one page of `write_hex`, given its page number: a confirmed
      erase, the buffer fill, and a confirmed commit of `len / 4` words (rounded
      down). Packing the erase fails before anything is written; packing the
      commit fails after the erase and the fill were written. */
  function PageOps(page: Block, pageNumber: int, mode: Mode): (t: Trace)
    ensures !InU16(pageNumber) ==> t == Trace([], Some(FieldOverflow))
    ensures InU16(pageNumber) ==>
      IsPrefix([Op(CallCharacteristic, [COMMAND_ERASE_PAGE, 0] + Le16(pageNumber), true)] + FillOps(page.data, mode), t.ops)
    ensures InU16(pageNumber) && !InU16(|page.data| / 4) ==>
      |t.ops| == 1 + |FillOps(page.data, mode)| && t.fault == Some(FieldOverflow)
    ensures InU16(pageNumber) && InU16(|page.data| / 4) ==>
      && t.fault.None?
      && |t.ops| == 2 + |FillOps(page.data, mode)|
      && t.ops[|t.ops| - 1]
         == Op(CallCharacteristic, [COMMAND_WRITE_BUFFER, 0] + Le16(pageNumber) + Le16(|page.data| / 4), true)
  {
    match Encode(ErasePage(pageNumber))
    case Err(f) => Trace([], Some(f))
    case Ok(erase) =>
      var started := [Op(CallCharacteristic, erase, true)] + FillOps(page.data, mode);
      match Encode(WriteBuffer(pageNumber, |page.data| / 4))
      case Err(f) => Trace(started, Some(f))
      case Ok(commit) => Trace(started + [Op(CallCharacteristic, commit, true)], None)
  }

  /** A page whose writes all pack reads back, on the device's side, as
      ErasePage of the page, the fill, then WriteBuffer of the page with the
      page's whole words; only the first and last writes wait for a response. */
  lemma PageOpsOnWire(page: Block, pageNumber: int, mode: Mode)
    requires InU16(pageNumber) && InU16(|page.data| / 4)
    ensures var ops := PageOps(page, pageNumber, mode).ops;
      && Decode(ops[0].value) == Some(ErasePage(pageNumber))
      && Decode(ops[|ops| - 1].value) == Some(WriteBuffer(pageNumber, |page.data| / 4))
      && ops[1..|ops| - 1] == FillOps(page.data, mode)
      && (forall k | 0 <= k < |ops| :: ops[k].confirmed <==> k == 0 || k == |ops| - 1)
  {
    var ops := PageOps(page, pageNumber, mode).ops;
    var fill := FillOps(page.data, mode);
    DecodeEncode(ErasePage(pageNumber));
    DecodeEncode(WriteBuffer(pageNumber, |page.data| / 4));
    assert ops == [ops[0]] + fill + [ops[|ops| - 1]];
  }

  /** The buffer writes of a page carry its data exactly in fast mode. */
  lemma PageOpsConserveFast(page: Block, pageNumber: int)
    requires InU16(pageNumber) && InU16(|page.data| / 4)
    ensures Flatten(Payloads(PageOps(page, pageNumber, Fast).ops)) == page.data
  {
    var ops := PageOps(page, pageNumber, Fast).ops;
    var fill := FillOps(page.data, Fast);
    assert ops == [ops[0]] + fill + [ops[|ops| - 1]];
    PayloadsAppend([ops[0]] + fill, [ops[|ops| - 1]]);
    PayloadsAppend([ops[0]], fill);
    assert Payload(ops[0]) == [];
    assert Payload(ops[|ops| - 1]) == [];
    assert Flatten(Payloads([ops[0]])) == [] + Flatten([]);
    assert Flatten(Payloads([ops[|ops| - 1]])) == [] + Flatten([]);
    FastFillConserves(page.data);
  }
}

=== FILE: device_info.dfy ===
/** The bootloader's metadata record and the geometry derived from it
    (`DFUInfo` in dfu.py). The record is the 12-byte `struct` layout
    `'BBH4sHH'`: version, page-size exponent, page count, a 4-byte chip id,
    first application page and application size in pages, in native
    (little-endian, unpadded) order. */
module DeviceInfo {
  import opened Bytes
  import opened Errors

  /** The only bootloader protocol version the updater will flash. */
  const SUPPORTED_VERSION: int := 1

  /** Size of the `'BBH4sHH'` record. */
  const METADATA_LENGTH: int := 12

  /** Size of the chip id field (`4s`). */
  const CHIP_ID_LENGTH: int := 4

  /** A flash page size: a positive number of bytes. */
  type PageSize = n: nat | n > 0 witness 1

  /** The raw fields of the metadata record, before anything is derived from them. */
  datatype Metadata = Metadata(
    version: byte,
    pageShift: byte,
    pageCount: int,
    chipId: seq<byte>,
    appStartPage: int,
    appSizePage: int)

  /** Every field fits its slot of the record. */
  predicate WellFormed(m: Metadata)
  {
    && 0 <= m.pageCount < U16_LIMIT
    && |m.chipId| == CHIP_ID_LENGTH
    && 0 <= m.appStartPage < U16_LIMIT
    && 0 <= m.appSizePage < U16_LIMIT
  }

  /** `struct.pack('BBH4sHH', ...)` of a record. */
  function Pack(m: Metadata): (r: seq<byte>)
    requires WellFormed(m)
    ensures |r| == METADATA_LENGTH
  {
    [m.version, m.pageShift] + Le16(m.pageCount) + m.chipId + Le16(m.appStartPage) + Le16(m.appSizePage)
  }

  /** `struct.unpack('BBH4sHH', data)`: defined exactly on 12-byte buffers,
      and then the inverse of `Pack`. */
  function Unpack(data: seq<byte>): (r: Option<Metadata>)
    ensures r.Some? <==> |data| == METADATA_LENGTH
    ensures r.Some? ==> WellFormed(r.value) && Pack(r.value) == data
  {
    if |data| != METADATA_LENGTH then None
    else
      var m := Metadata(data[0], data[1], ReadLe16(data[2], data[3]), data[4..8],
                        ReadLe16(data[8], data[9]), ReadLe16(data[10], data[11]));
      ReadLe16RoundTrip(data[2], data[3]);
      ReadLe16RoundTrip(data[8], data[9]);
      ReadLe16RoundTrip(data[10], data[11]);
      assert Pack(m) == data;
      Some(m)
  }

  lemma UnpackPack(m: Metadata)
    requires WellFormed(m)
    ensures Unpack(Pack(m)) == Some(m)
  {
    var data := Pack(m);
    assert data[4..8] == m.chipId;
    Le16RoundTrip(m.pageCount);
    Le16RoundTrip(m.appStartPage);
    Le16RoundTrip(m.appSizePage);
  }

  /** A continuation byte of a multi-byte UTF-8 sequence. */
  predicate IsContinuation(b: byte)
  {
    0x80 <= b <= 0xBF
  }

  /** Strict UTF-8 well-formedness (table 3-7 of the Unicode Standard), which is
      what `bytes.decode('utf-8')` accepts: no overlong forms, no surrogates,
      nothing above U+10FFFF. */
  predicate ValidUtf8(s: seq<byte>)
    decreases |s|
  {
    if s == [] then true
    else if s[0] <= 0x7F then ValidUtf8(s[1..])
    else if 0xC2 <= s[0] <= 0xDF then
      |s| >= 2 && IsContinuation(s[1]) && ValidUtf8(s[2..])
    else if 0xE0 <= s[0] <= 0xEF then
      && |s| >= 3
      && (if s[0] == 0xE0 then 0xA0 <= s[1] <= 0xBF
          else if s[0] == 0xED then 0x80 <= s[1] <= 0x9F
          else IsContinuation(s[1]))
      && IsContinuation(s[2])
      && ValidUtf8(s[3..])
    else if 0xF0 <= s[0] <= 0xF4 then
      && |s| >= 4
      && (if s[0] == 0xF0 then 0x90 <= s[1] <= 0xBF
          else if s[0] == 0xF4 then 0x80 <= s[1] <= 0x8F
          else IsContinuation(s[1]))
      && IsContinuation(s[2])
      && IsContinuation(s[3])
      && ValidUtf8(s[4..])
    else false
  }

  /** Valid UTF-8 never starts with a continuation byte and never ends inside
      a multi-byte sequence: its last byte is ASCII or a continuation byte. */
  lemma {:induction false} Utf8Boundaries(s: seq<byte>)
    requires ValidUtf8(s) && s != []
    ensures !IsContinuation(s[0])
    ensures s[|s| - 1] <= 0xBF
    decreases |s|
  {
    var k := if s[0] <= 0x7F then 1 else if s[0] <= 0xDF then 2 else if s[0] <= 0xEF then 3 else 4;
    assert ValidUtf8(s[k..]);
    if s[k..] != [] {
      Utf8Boundaries(s[k..]);
      assert s[k..][|s| - k - 1] == s[|s| - 1];
    }
  }

  /** What the strict decoder refuses and accepts: a stray continuation byte,
      an overlong form, an encoded surrogate, a code point above U+10FFFF and a
      truncated sequence are refused; the three bytes of U+20AC are accepted. */
  lemma Utf8Cases()
    ensures !ValidUtf8([0x80])
    ensures !ValidUtf8([0xC0, 0x80])
    ensures !ValidUtf8([0xED, 0xA0, 0x80])
    ensures !ValidUtf8([0xF4, 0x90, 0x80, 0x80])
    ensures !ValidUtf8([0xE2, 0x82])
    ensures ValidUtf8([0xE2, 0x82, 0xAC])
  {
    assert [0xE2, 0x82, 0xAC][3..] == [];
  }

  /** Any ASCII text is valid UTF-8. */
  lemma {:induction false} AsciiIsUtf8(s: seq<byte>)
    requires forall i | 0 <= i < |s| :: s[i] <= 0x7F
    ensures ValidUtf8(s)
    decreases |s|
  {
    if s != [] {
      AsciiIsUtf8(s[1..]);
    }
  }

  function Pow2(e: nat): (r: PageSize)
  {
    if e == 0 then 1 else 2 * Pow2(e - 1)
  }

  /** Device geometry as the updater uses it. The chip id is kept as its
      (UTF-8 validated) bytes. */
  datatype Info = Info(
    version: byte,
    pageSize: PageSize,
    flashSize: nat,
    chipId: seq<byte>,
    appStart: nat,
    appSize: nat)

  /** The geometry a well-formed record describes: sizes counted in pages
      become sizes in bytes. */
  function Derive(m: Metadata): (info: Info)
    requires WellFormed(m)
  {
    var pageSize := Pow2(m.pageShift);
    Info(m.version, pageSize, m.pageCount * pageSize, m.chipId,
         m.appStartPage * pageSize, m.appSizePage * pageSize)
  }

  /** `DFUInfo(data)`: fails unless the buffer is exactly one record and its
      chip id decodes as UTF-8; otherwise the page size is two to the power of
      byte 1 and the flash, application start and application sizes are the
      little-endian counts in bytes 2-3, 8-9 and 10-11 times the page size. */
  function Decode(data: seq<byte>): (r: Result<Info>)
    ensures |data| != METADATA_LENGTH ==> r == Err(MetadataLength)
    ensures |data| == METADATA_LENGTH ==> (r.Ok? <==> ValidUtf8(data[4..8]))
    ensures |data| == METADATA_LENGTH && !ValidUtf8(data[4..8]) ==> r == Err(ChipIdNotUtf8)
    ensures r.Err? ==> r.fault in {MetadataLength, ChipIdNotUtf8}
    ensures r.Ok? ==>
      && |data| == METADATA_LENGTH
      && r.value.version == data[0]
      && r.value.pageSize == Pow2(data[1])
      && r.value.flashSize == ReadLe16(data[2], data[3]) * r.value.pageSize
      && r.value.chipId == data[4..8]
      && r.value.appStart == ReadLe16(data[8], data[9]) * r.value.pageSize
      && r.value.appSize == ReadLe16(data[10], data[11]) * r.value.pageSize
  {
    match Unpack(data)
    case None => Err(MetadataLength)
    case Some(m) =>
      if ValidUtf8(m.chipId) then Ok(Derive(m)) else Err(ChipIdNotUtf8)
  }

  /** Decoding a packed record yields exactly the geometry the record describes. */
  lemma DecodePack(m: Metadata)
    requires WellFormed(m)
    requires ValidUtf8(m.chipId)
    ensures Decode(Pack(m)) == Ok(Derive(m))
  {
    UnpackPack(m);
  }

  /** The bootloader speaks a protocol version this updater can flash. */
  predicate Supported(info: Info)
  {
    info.version == SUPPORTED_VERSION
  }

  /** The updater goes on with a decoded device exactly when the first
      metadata byte is the one protocol version it speaks. */
  lemma SupportedIffVersionByte(data: seq<byte>)
    requires Decode(data).Ok?
    ensures Supported(Decode(data).value) <==> data[0] == SUPPORTED_VERSION
  {
  }

  /** `get_page_number`: the page an address starts, failing for an address
      that is not on a page boundary. */
  function PageNumber(info: Info, address: int): (r: Result<int>)
    ensures r.Ok? <==> address % info.pageSize == 0
    ensures r.Ok? ==> r.value * info.pageSize == address
    ensures r.Err? ==> r.fault == NotPageAligned
  {
    if address % info.pageSize != 0 then Err(NotPageAligned) else Ok(address / info.pageSize)
  }

  /** The first address of page `p` converts back to `p`, for every page
      number, negative ones included. */
  lemma PageNumberOfPageStart(info: Info, p: int)
    ensures PageNumber(info, p * info.pageSize) == Ok(p)
  {
    var n := info.pageSize;
    assert (p * n) % n == 0 && (p * n) / n == p by {
      LemmaMulDivMod(p, n);
    }
  }

  lemma LemmaMulDivMod(p: int, n: PageSize)
    ensures (p * n) % n == 0 && (p * n) / n == p
  {
    var q, r := (p * n) / n, (p * n) % n;
    assert (p - q) * n == r;
    if p - q >= 1 {
      LemmaMulAtLeast(p - q, n);
    } else if p - q <= -1 {
      LemmaMulAtLeast(q - p, n);
    }
  }

  lemma LemmaMulAtLeast(a: int, n: nat)
    requires a >= 1
    ensures a * n >= n
  {
  }

  /** A worked example: version 1, page-size exponent 10, 16 pages, chip id
      "ABCD", application at page 2 and 256 pages long. */
  lemma DecodeExample()
    ensures Decode([0x01, 0x0A, 0x10, 0x00, 0x41, 0x42, 0x43, 0x44, 0x02, 0x00, 0x00, 0x01])
         == Ok(Info(1, 1024, 16384, [0x41, 0x42, 0x43, 0x44], 2048, 262144))
  {
    var data: seq<byte> := [0x01, 0x0A, 0x10, 0x00, 0x41, 0x42, 0x43, 0x44, 0x02, 0x00, 0x00, 0x01];
    AsciiIsUtf8(data[4..8]);
    var m := Metadata(1, 10, 16, [0x41, 0x42, 0x43, 0x44], 2, 256);
    assert data[4..8] == m.chipId;
    assert ReadLe16(data[10], data[11]) == 256;
    assert Unpack(data) == Some(m);
    assert Pow2(10) == 1024 by {
      assert Pow2(5) == 32;
    }
    assert Derive(m) == Info(1, 1024, 16384, [0x41, 0x42, 0x43, 0x44], 2048, 262144);
  }
}

=== FILE: errors.dfy ===
/** Failure vocabulary of the firmware updater: every exception the update
    engine can raise, and the two wrappers used to return them. */
module Errors {

  /** The distinct ways an operation of the updater can fail. */
  datatype Fault =
    /** `struct.unpack` of the device metadata: buffer is not 12 bytes. */
    | MetadataLength
    /** `bytes.decode('utf-8')` of the chip id failed. */
    | ChipIdNotUtf8
    /** `get_page_number`: the address is not a multiple of the page size. */
    | NotPageAligned
    /** A non-blank image line that does not start with ':'. */
    | MissingColon
    /** `bytes.fromhex` rejected the characters after the ':'. */
    | BadHex
    /** Fewer than four bytes before the checksum, so `struct.unpack('>BHB')` fails. */
    | RecordTooShort
    /** The payload is not as long as the record's length byte says. */
    | LengthMismatch
    /** An Extended Segment Address payload that is not exactly two bytes. */
    | BadSegmentPayload
    /** A Data record after a Start Segment Address record cleared the base address. */
    | NoBaseAddress
    /** A record type above 3. */
    | UnknownRecordType(kind: int)
    /** `struct.pack` of a 16-bit field with a value outside 0..65535. */
    | FieldOverflow
    /** The link was down on the write and again on its single retry. */
    | NotConnected
    /** Reconnecting after a "not connected" write failed. */
    | ReconnectFailed
    /** The transport failed a write for any reason other than "not connected". */
    | TransportFailure
    /** The device answered a confirmed command with an empty response. */
    | EmptyResponse
    /** The device answered a confirmed command with a non-zero status. */
    | CommandRejected(status: int)
    /** A notification arrived while the previous one was still unconsumed. */
    | UnexpectedResponse
    /** No response ever arrives: the source waits without a timeout. */
    | Stalled

  datatype Option<+T> = None | Some(value: T)

  datatype Result<+T> = Ok(value: T) | Err(fault: Fault)
}

=== FILE: intel_hex.dfy ===
/** The Intel HEX reader (`FirmwareUpdater.read_hex` in dfu.py). Each line is
    stripped, decoded from hexadecimal, its checksum byte dropped unchecked,
    and the record it holds fed to a small state machine that grows one open
    block while Data records stay address-contiguous and hands finished blocks
    out in order. The file itself is not modelled: the reader gets its lines. */
module IntelHex {
  import opened Bytes
  import opened Errors
  import opened Pages

  /** Record types, as the Intel HEX format numbers them. */
  const DATA: int := 0
  const END_OF_FILE: int := 1
  const EXTENDED_SEGMENT_ADDRESS: int := 2
  const START_SEGMENT_ADDRESS: int := 3

  // ---------------------------------------------------------------------------
  // Text: `str.strip()` and `bytes.fromhex()`

  /** `str.isspace()`: the characters `str.strip()` removes. */
  predicate IsSpace(c: char)
  {
    var n := c as int;
    || 0x09 <= n <= 0x0D
    || 0x1C <= n <= 0x20
    || n == 0x85 || n == 0xA0 || n == 0x1680
    || 0x2000 <= n <= 0x200A
    || n == 0x2028 || n == 0x2029 || n == 0x202F || n == 0x205F || n == 0x3000
  }

  /** The ASCII whitespace `bytes.fromhex()` skips between digit pairs. */
  predicate IsAsciiSpace(c: char)
  {
    c == ' ' || ('\t' <= c <= '\r')
  }

  predicate IsBlank(s: string)
  {
    forall i | 0 <= i < |s| :: IsSpace(s[i])
  }

  /** How many whitespace characters `s` starts with. */
  function LeadingSpaces(s: string): (n: nat)
    ensures n <= |s|
    ensures forall i | 0 <= i < n :: IsSpace(s[i])
    ensures n < |s| ==> !IsSpace(s[n])
    decreases |s|
  {
    if s != [] && IsSpace(s[0]) then
      var n := LeadingSpaces(s[1..]);
      assert forall i | 1 <= i <= n :: s[i] == s[1..][i - 1];
      n + 1
    else 0
  }

  /** How many whitespace characters `s` ends with. */
  function TrailingSpaces(s: string): (n: nat)
    ensures n <= |s|
    ensures forall i | |s| - n <= i < |s| :: IsSpace(s[i])
    ensures n < |s| ==> !IsSpace(s[|s| - n - 1])
    decreases |s|
  {
    if s != [] && IsSpace(s[|s| - 1]) then
      var n := TrailingSpaces(s[..|s| - 1]);
      assert forall i | |s| - 1 - n <= i < |s| - 1 :: s[i] == s[..|s| - 1][i];
      n + 1
    else 0
  }

  /** `s` with its leading whitespace removed. */
  function TrimStart(s: string): (r: string)
    ensures |r| <= |s| && r == s[|s| - |r|..]
    ensures r != [] ==> !IsSpace(r[0])
    ensures forall i | 0 <= i < |s| - |r| :: IsSpace(s[i])
  {
    s[LeadingSpaces(s)..]
  }

  /** `s` with its trailing whitespace removed. */
  function TrimEnd(s: string): (r: string)
    ensures |r| <= |s| && r == s[..|r|]
    ensures r != [] ==> !IsSpace(r[|r| - 1])
    ensures forall i | |r| <= i < |s| :: IsSpace(s[i])
  {
    s[..|s| - TrailingSpaces(s)]
  }

  /** `line.strip()`: the part of `s` that starts `lead` characters in, where
      everything before it and everything after it is whitespace and it
      neither starts nor ends with whitespace. */
  function Strip(s: string): (r: string)
    ensures var lead := |s| - |TrimStart(s)|;
      && lead + |r| <= |s|
      && r == s[lead .. lead + |r|]
      && (forall i | 0 <= i < lead :: IsSpace(s[i]))
      && (forall i | lead + |r| <= i < |s| :: IsSpace(s[i]))
    ensures r != [] ==> !IsSpace(r[0]) && !IsSpace(r[|r| - 1])
  {
    var t := TrimStart(s);
    var r := TrimEnd(t);
    TrimmedSlice(s, t, r);
    if t != [] then
      TrimEndKeepsHead(t);
      r
    else r
  }

  /** A prefix `r` of a suffix `t` of `s`, with only whitespace between the
      end of `r` and the end of `t`, sits in `s` with only whitespace after it. */
  lemma TrimmedSlice(s: string, t: string, r: string)
    requires |t| <= |s| && t == s[|s| - |t|..]
    requires |r| <= |t| && r == t[..|r|]
    requires forall i | |r| <= i < |t| :: IsSpace(t[i])
    ensures var lead := |s| - |t|;
      && r == s[lead .. lead + |r|]
      && (forall i | lead + |r| <= i < |s| :: IsSpace(s[i]))
  {
    var lead := |s| - |t|;
    PrefixOfSuffix(s, lead, |r|);
    forall i | lead + |r| <= i < |s|
      ensures IsSpace(s[i])
    {
      assert s[i] == t[i - lead];
    }
  }

  /** Trimming the end of a string that starts with a non-space character
      keeps that character. */
  lemma TrimEndKeepsHead(s: string)
    requires s != [] && !IsSpace(s[0])
    ensures TrimEnd(s) != [] && TrimEnd(s)[0] == s[0]
  {
    assert TrailingSpaces(s) < |s|;
  }

  /** Stripping leaves nothing exactly when the line is all whitespace. */
  lemma StripEmpty(s: string)
    ensures Strip(s) == [] <==> IsBlank(s)
  {
    if LeadingSpaces(s) < |s| {
      TrimEndKeepsHead(TrimStart(s));
    }
  }

  /** A line that starts and ends with non-space characters is its own strip. */
  lemma StripUnchanged(s: string)
    requires s != [] && !IsSpace(s[0]) && !IsSpace(s[|s| - 1])
    ensures Strip(s) == s
  {
    assert TrimStart(s) == s;
  }

  predicate IsHexDigit(c: char)
  {
    ('0' <= c <= '9') || ('a' <= c <= 'f') || ('A' <= c <= 'F')
  }

  function DigitValue(c: char): (v: int)
    requires IsHexDigit(c)
    ensures 0 <= v < 16
  {
    if '0' <= c <= '9' then c as int - '0' as int
    else if 'a' <= c <= 'f' then c as int - 'a' as int + 10
    else c as int - 'A' as int + 10
  }

  function HexDigit(v: int): (c: char)
    requires 0 <= v < 16
    ensures IsHexDigit(c) && DigitValue(c) == v
  {
    if v < 10 then ('0' as int + v) as char else ('A' as int + v - 10) as char
  }

  /** `bytes.fromhex(s)`: pairs of hex digits, ASCII whitespace allowed before
      each pair; anything else (an odd digit out, a non-hex character, a space
      inside a pair) fails. */
  function FromHex(s: string): (r: Option<seq<byte>>)
    ensures r.Some? ==> 2 * |r.value| <= |s|
    ensures (forall i | 0 <= i < |s| :: IsHexDigit(s[i])) ==>
      (r.Some? <==> |s| % 2 == 0) && (r.Some? ==> 2 * |r.value| == |s|)
    ensures r.Some? && |r.value| > 0 && |s| >= 2 && IsHexDigit(s[0]) && IsHexDigit(s[1]) ==>
      r.value[0] == 16 * DigitValue(s[0]) + DigitValue(s[1])
    decreases |s|
  {
    if s == [] then Some([])
    else if IsAsciiSpace(s[0]) then FromHex(s[1..])
    else if |s| >= 2 && IsHexDigit(s[0]) && IsHexDigit(s[1]) then
      assert forall i | 0 <= i < |s| - 2 :: s[2..][i] == s[i + 2];
      match FromHex(s[2..])
      case None => None
      case Some(rest) => Some([16 * DigitValue(s[0]) + DigitValue(s[1])] + rest)
    else None
  }

  /** Two upper-case hex digits per byte, no separators. */
  function ToHex(bs: seq<byte>): (r: string)
    ensures |r| == 2 * |bs|
    ensures forall i | 0 <= i < |r| :: IsHexDigit(r[i])
  {
    if bs == [] then [] else [HexDigit(bs[0] / 16), HexDigit(bs[0] % 16)] + ToHex(bs[1..])
  }

  lemma {:induction false} FromHexToHex(bs: seq<byte>)
    ensures FromHex(ToHex(bs)) == Some(bs)
    decreases |bs|
  {
    if bs != [] {
      var s := ToHex(bs);
      assert s[2..] == ToHex(bs[1..]);
      FromHexToHex(bs[1..]);
      assert !IsAsciiSpace(s[0]);
      assert [bs[0]] + bs[1..] == bs;
    }
  }

  // ---------------------------------------------------------------------------
  // Records

  /** One record: declared payload length, 16-bit address offset, type and payload. */
  datatype Record = Record(length: byte, offset: int, kind: byte, payload: seq<byte>)

  predicate WellFormedRecord(rec: Record)
  {
    0 <= rec.offset < U16_LIMIT && |rec.payload| == rec.length
  }

  /** The record's bytes without the checksum: length, offset (big-endian), type, payload. */
  function RecordBytes(rec: Record): (body: seq<byte>)
    requires WellFormedRecord(rec)
    ensures |body| == 4 + rec.length
  {
    [rec.length, rec.offset / 256, rec.offset % 256, rec.kind] + rec.payload
  }

  /** `struct.unpack('>BHB', line[:4])` and the length check: a body shorter
      than four bytes, or whose payload is not as long as declared, fails;
      otherwise the record decoded is the one whose bytes the body is. */
  function DecodeRecord(body: seq<byte>): (r: Result<Record>)
    ensures |body| < 4 ==> r == Err(RecordTooShort)
    ensures |body| >= 4 ==> (r.Ok? <==> |body| - 4 == body[0])
    ensures |body| >= 4 && r.Err? ==> r.fault == LengthMismatch
    ensures r.Ok? ==> WellFormedRecord(r.value) && RecordBytes(r.value) == body
  {
    if |body| < 4 then Err(RecordTooShort)
    else if |body| - 4 != body[0] then Err(LengthMismatch)
    else
      var rec := Record(body[0], ReadBe16(body[1], body[2]), body[3], body[4..]);
      assert RecordBytes(rec) == body;
      Ok(rec)
  }

  lemma DecodeRecordBytes(rec: Record)
    requires WellFormedRecord(rec)
    ensures DecodeRecord(RecordBytes(rec)) == Ok(rec)
  {
    assert RecordBytes(rec)[4..] == rec.payload;
  }

  /** What one line of the image holds. */
  datatype Line = Blank | Rec(record: Record)

  /** One line of `read_hex`: blank lines are skipped, a line must start with
      ':', the rest must be hex, and the last decoded byte (the checksum) is
      dropped without being checked. */
  function ParseLine(line: string): (r: Result<Line>)
    ensures r == Ok(Blank) <==> IsBlank(line)
    ensures Strip(line) != [] && Strip(line)[0] != ':' ==> r == Err(MissingColon)
    ensures r.Ok? && r.value.Rec? ==> WellFormedRecord(r.value.record)
  {
    StripEmpty(line);
    var t := Strip(line);
    if t == [] then Ok(Blank)
    else if t[0] != ':' then Err(MissingColon)
    else
      match FromHex(t[1..])
      case None => Err(BadHex)
      case Some(bs) =>
        var body := if bs == [] then [] else bs[..|bs| - 1];
        match DecodeRecord(body)
        case Err(f) => Err(f)
        case Ok(rec) => Ok(Rec(rec))
  }

  /** The text of a record line: ':' and the hex of the record bytes followed
      by a checksum byte. */
  function FormatLine(body: seq<byte>, checksum: byte): string
  {
    [':'] + ToHex(body + [checksum])
  }

  /** A formatted line parses as its record bytes decode, whatever its checksum. */
  lemma ParseFormattedLine(body: seq<byte>, checksum: byte)
    ensures ParseLine(FormatLine(body, checksum))
         == (match DecodeRecord(body) case Err(f) => Err(f) case Ok(rec) => Ok(Rec(rec)))
  {
    var line := FormatLine(body, checksum);
    assert line[|line| - 1] == ToHex(body + [checksum])[|line| - 2];
    StripUnchanged(line);
    assert line[1..] == ToHex(body + [checksum]);
    FromHexToHex(body + [checksum]);
    assert (body + [checksum])[..|body|] == body;
  }

  /** The checksum byte never affects the result of parsing a line. */
  lemma ChecksumIgnored(body: seq<byte>, c1: byte, c2: byte)
    ensures ParseLine(FormatLine(body, c1)) == ParseLine(FormatLine(body, c2))
  {
    ParseFormattedLine(body, c1);
    ParseFormattedLine(body, c2);
  }

  /** Formatting a record and parsing the line gives the record back. */
  lemma ParseRecordLine(rec: Record, checksum: byte)
    requires WellFormedRecord(rec)
    ensures ParseLine(FormatLine(RecordBytes(rec), checksum)) == Ok(Rec(rec))
  {
    ParseFormattedLine(RecordBytes(rec), checksum);
    DecodeRecordBytes(rec);
  }

  // ---------------------------------------------------------------------------
  // Blocks

  /** The reader's state: the block being grown, the current base address
      (`None` after a Start Segment Address record) and the blocks already
      handed out, in order. */
  datatype Parser = Parser(open: Option<Block>, base: Option<int>, emitted: seq<Block>)

  /** The state before the first line. */
  const Initial: Parser := Parser(None, Some(0), [])

  /** The result of feeding one record: the reader goes on, or it raises after
      handing out `emitted`. */
  datatype Progress = Running(parser: Parser) | Halted(emitted: seq<Block>, fault: Fault)

  /** The blocks handed out so far followed by the open block, if any. */
  function Flush(p: Parser): seq<Block>
  {
    match p.open
    case None => p.emitted
    case Some(b) => p.emitted + [b]
  }

  /** Every byte the reader has taken in so far, in order. */
  function Taken(p: Parser): seq<byte>
  {
    Flatten(Contents(Flush(p)))
  }

  lemma ContentsAppend(a: seq<Block>, b: Block)
    ensures Flatten(Contents(a + [b])) == Flatten(Contents(a)) + b.data
  {
    assert Contents(a + [b]) == Contents(a) + [b.data];
    FlattenAppend(Contents(a), [b.data]);
    assert Flatten([b.data]) == b.data + Flatten([]);
  }

  /** The payload bytes a record contributes to the image. */
  function DataOf(rec: Record): seq<byte>
  {
    if rec.kind == DATA then rec.payload else []
  }

  /** The bytes of a Data record placed at `address`, with the base known: they
      extend the open block when it ends at `address`; otherwise the open block
      is handed out and a new one starts there. Either way the reader has taken
      in exactly the payload more, hands nothing back, and its open block ends
      where the payload does. */
  function Place(p: Parser, address: int, payload: seq<byte>): (q: Parser)
    ensures Taken(q) == Taken(p) + payload
    ensures IsPrefix(p.emitted, q.emitted)
    ensures q.base == p.base && q.open.Some? && End(q.open.value) == address + |payload|
  {
    match p.open
    case None =>
      ContentsAppend(p.emitted, Block(address, payload));
      p.(open := Some(Block(address, payload)))
    case Some(b) =>
      ContentsAppend(p.emitted, b);
      if End(b) != address then
        ContentsAppend(p.emitted + [b], Block(address, payload));
        Parser(Some(Block(address, payload)), p.base, p.emitted + [b])
      else
        ContentsAppend(p.emitted, Block(b.address, b.data + payload));
        AppendAssoc(Flatten(Contents(p.emitted)), b.data, payload);
        p.(open := Some(Block(b.address, b.data + payload)))
  }

  /** One record of the loop in `read_hex`. Going on, the reader has taken in
      exactly the record's data bytes and has not retracted any block it
      handed out; after a Data record the open block ends where the record
      does. Halting, the blocks handed out carry a prefix of the bytes taken in. */
  function Feed(p: Parser, rec: Record): (r: Progress)
    ensures r.Running? ==> Taken(r.parser) == Taken(p) + DataOf(rec)
    ensures r.Running? ==> IsPrefix(p.emitted, r.parser.emitted)
    ensures r.Running? && rec.kind == DATA ==>
      && p.base.Some? && r.parser.base == p.base
      && r.parser.open.Some?
      && End(r.parser.open.value) == p.base.value + rec.offset + |rec.payload|
    ensures r.Halted? ==> IsPrefix(Flatten(Contents(r.emitted)), Taken(p))
    ensures r.Halted? ==> IsPrefix(p.emitted, r.emitted)
  {
    if rec.kind == DATA then
      match p.base
      case None =>
        PrefixOfFlush(p);
        Halted(p.emitted, NoBaseAddress)
      case Some(base) => Running(Place(p, base + rec.offset, rec.payload))
    else if rec.kind == END_OF_FILE then
      assert Taken(p) + [] == Taken(p);
      Running(p)
    else if rec.kind == EXTENDED_SEGMENT_ADDRESS then
      var emitted := Flush(p);
      if |rec.payload| != 2 then Halted(emitted, BadSegmentPayload)
      else
        assert Taken(p) + [] == Taken(p);
        Running(Parser(None, Some(ReadBe16(rec.payload[0], rec.payload[1]) * 16), emitted))
    else if rec.kind == START_SEGMENT_ADDRESS then
      assert Taken(p) + [] == Taken(p);
      Running(p.(base := None))
    else
      PrefixOfFlush(p);
      Halted(p.emitted, UnknownRecordType(rec.kind))
  }

  lemma PrefixOfFlush(p: Parser)
    ensures IsPrefix(Flatten(Contents(p.emitted)), Taken(p))
  {
    if p.open.Some? {
      ContentsAppend(p.emitted, p.open.value);
    }
  }

  /** Every line of the image parsed on its own. Parsing has no effects, so
      parsing all lines up front and stopping at the first failed one is the
      same as parsing each line when the loop of `read_hex` reaches it. */
  function ParseAll(lines: seq<string>): (rs: seq<Result<Line>>)
    ensures |rs| == |lines|
    ensures forall k | 0 <= k < |lines| :: rs[k] == ParseLine(lines[k])
  {
    Map(ParseLine, lines)
  }

  lemma InitialTakesNothing()
    ensures Taken(Initial) == []
  {
    assert Flush(Initial) == [];
    assert Contents([]) == [];
  }

  lemma ParseAllAppend(a: seq<string>, b: seq<string>)
    ensures ParseAll(a + b) == ParseAll(a) + ParseAll(b)
  {
    MapAppend(ParseLine, a, b);
  }

  lemma ParseTwo(l1: string, l2: string)
    ensures ParseAll([l1, l2]) == [ParseLine(l1), ParseLine(l2)]
  {
    MapTwo(ParseLine, l1, l2);
  }

  lemma ParseThree(l1: string, l2: string, l3: string)
    ensures ParseAll([l1, l2, l3]) == [ParseLine(l1), ParseLine(l2), ParseLine(l3)]
  {
    MapThree(ParseLine, l1, l2, l3);
  }

  /** The payload bytes a parsed line contributes to the image. */
  function LineData(r: Result<Line>): seq<byte>
  {
    match r
    case Ok(Rec(rec)) => DataOf(rec)
    case _ => []
  }

  /** One iteration of the loop of `read_hex`: going on, the reader has taken
      in exactly the line's data bytes; halting, the blocks handed out carry a
      prefix of what it had taken in before. */
  function StepLine(p: Parser, r: Result<Line>): (q: Progress)
    ensures q.Running? ==> Taken(q.parser) == Taken(p) + LineData(r)
    ensures q.Halted? ==> IsPrefix(Flatten(Contents(q.emitted)), Taken(p))
    ensures q.Running? ==> IsPrefix(p.emitted, q.parser.emitted)
    ensures q.Halted? ==> IsPrefix(p.emitted, q.emitted)
  {
    match r
    case Err(f) =>
      PrefixOfFlush(p);
      Halted(p.emitted, f)
    case Ok(Blank) => Running(p)
    case Ok(Rec(rec)) => Feed(p, rec)
  }

  /** What the reader produced: the blocks it handed out, in order, and the
      exception it raised after them, if any. */
  datatype Image = Image(blocks: seq<Block>, fault: Option<Fault>)

  /** The rest of the loop of `read_hex` from state `p`, ending with the open
      block handed out last. A generator cannot take back what it yielded:
      the blocks already handed out lead the output, whether the rest of the
      image reads or fails. */
  function Drive(p: Parser, rs: seq<Result<Line>>): (r: Image)
    ensures IsPrefix(p.emitted, r.blocks)
    ensures rs == [] ==> r == Image(Flush(p), None)
    decreases |rs|
  {
    if rs == [] then
      assert Flush(p)[..|p.emitted|] == p.emitted;
      Image(Flush(p), None)
    else
      match StepLine(p, rs[0])
      case Halted(e, f) => Image(e, Some(f))
      case Running(q) =>
        var r := Drive(q, rs[1..]);
        PrefixTrans(p.emitted, q.emitted, r.blocks);
        r
  }

  /** `read_hex` over the lines of an image. Byte conservation: when the image
      reads without error, the blocks' data concatenated in order is the Data
      records' payloads concatenated in order; when it fails, the blocks
      already handed out carry a prefix of it. */
  function ReadHex(lines: seq<string>): (r: Image)
    ensures r.fault.None? ==> Flatten(Contents(r.blocks)) == DataBytes(ParseAll(lines))
    ensures IsPrefix(Flatten(Contents(r.blocks)), DataBytes(ParseAll(lines)))
  {
    var rs := ParseAll(lines);
    DriveFromStart(rs);
    Drive(Initial, rs)
  }

  /** Byte conservation from the reader's starting state. */
  lemma DriveFromStart(rs: seq<Result<Line>>)
    ensures Drive(Initial, rs).fault.None? ==> Flatten(Contents(Drive(Initial, rs).blocks)) == DataBytes(rs)
    ensures IsPrefix(Flatten(Contents(Drive(Initial, rs).blocks)), DataBytes(rs))
  {
    DriveConserves(Initial, rs);
    InitialTakesNothing();
    assert Taken(Initial) + DataBytes(rs) == DataBytes(rs);
  }

  /** A parsed line the reader goes on after, whatever state it is in, as long
      as the base address is known: a blank line, a Data or End Of File
      record, or an Extended Segment Address record with a two-byte payload. */
  predicate Readable(r: Result<Line>)
  {
    match r
    case Err(_) => false
    case Ok(Blank) => true
    case Ok(Rec(rec)) =>
      || rec.kind == DATA
      || rec.kind == END_OF_FILE
      || (rec.kind == EXTENDED_SEGMENT_ADDRESS && |rec.payload| == 2)
  }

  /** With the base address known, a run of readable lines raises nothing. */
  lemma {:induction false} DriveSucceeds(p: Parser, rs: seq<Result<Line>>)
    requires p.base.Some?
    requires forall k | 0 <= k < |rs| :: Readable(rs[k])
    ensures Drive(p, rs).fault.None?
    decreases |rs|
  {
    if rs != [] {
      var q := StepLine(p, rs[0]);
      assert q.Running? && q.parser.base.Some?;
      assert forall k | 0 <= k < |rs[1..]| :: rs[1..][k] == rs[k + 1];
      DriveSucceeds(q.parser, rs[1..]);
    }
  }

  /** An image whose every line is readable reads without error, so its
      blocks carry exactly the payloads of its Data records. */
  lemma ReadHexSucceeds(lines: seq<string>)
    requires forall k | 0 <= k < |lines| :: Readable(ParseLine(lines[k]))
    ensures ReadHex(lines).fault.None?
    ensures Flatten(Contents(ReadHex(lines).blocks)) == DataBytes(ParseAll(lines))
  {
    DriveSucceeds(Initial, ParseAll(lines));
  }

  /** A line that does not parse makes the image fail: the reader never gets
      past it, so it raises, at that line or before. */
  lemma {:induction false} DriveFailsOnBadLine(p: Parser, rs: seq<Result<Line>>, k: nat)
    requires k < |rs| && rs[k].Err?
    ensures Drive(p, rs).fault.Some?
    decreases |rs|
  {
    match StepLine(p, rs[0])
    case Halted(_, _) =>
    case Running(q) =>
      assert k > 0;
      assert rs[1..][k - 1] == rs[k];
      DriveFailsOnBadLine(q, rs[1..], k - 1);
  }

  /** An image with a line that does not parse never reads without error. */
  lemma ReadHexFailsOnBadLine(lines: seq<string>, k: nat)
    requires k < |lines| && ParseLine(lines[k]).Err?
    ensures ReadHex(lines).fault.Some?
  {
    DriveFailsOnBadLine(Initial, ParseAll(lines), k);
  }

  /** The payloads of the Data records among the parsed lines, concatenated in order. */
  function DataBytes(rs: seq<Result<Line>>): seq<byte>
    decreases |rs|
  {
    if rs == [] then [] else LineData(rs[0]) + DataBytes(rs[1..])
  }

  /** Byte conservation from any state: on success the blocks handed out carry
      what was already taken in followed by every Data payload, in order; on
      failure they carry a prefix of that. */
  lemma {:induction false} DriveConserves(p: Parser, rs: seq<Result<Line>>)
    ensures Drive(p, rs).fault.None? ==>
      Flatten(Contents(Drive(p, rs).blocks)) == Taken(p) + DataBytes(rs)
    ensures IsPrefix(Flatten(Contents(Drive(p, rs).blocks)), Taken(p) + DataBytes(rs))
    decreases |rs|
  {
    if rs == [] {
      assert Taken(p) + DataBytes(rs) == Taken(p);
    } else {
      var rest := rs[1..];
      assert DataBytes(rs) == LineData(rs[0]) + DataBytes(rest);
      var step := StepLine(p, rs[0]);
      if step.Running? {
        assert Drive(p, rs) == Drive(step.parser, rest);
        DriveConserves(step.parser, rest);
        AppendAssoc(Taken(p), LineData(rs[0]), DataBytes(rest));
      } else {
        assert Drive(p, rs) == Image(step.emitted, Some(step.fault));
        PrefixOfAppend(Flatten(Contents(step.emitted)), Taken(p), DataBytes(rs));
      }
    }
  }

  // ---------------------------------------------------------------------------
  // Record types, one by one

  /** A Data record extends the open block exactly when the block ends at the
      record's absolute address (base plus offset); otherwise the open block is
      handed out and a new one starts at that address. */
  lemma FeedData(p: Parser, rec: Record)
    requires rec.kind == DATA && p.base.Some?
    ensures Feed(p, rec).Running?
    ensures var q := Feed(p, rec).parser;
            var address := p.base.value + rec.offset;
      && q.base == p.base
      && (p.open.None? ==> q.emitted == p.emitted && q.open == Some(Block(address, rec.payload)))
      && (p.open.Some? ==> (q.emitted == p.emitted <==> End(p.open.value) == address))
      && (p.open.Some? && End(p.open.value) == address ==>
            q.open == Some(Block(p.open.value.address, p.open.value.data + rec.payload)))
      && (p.open.Some? && End(p.open.value) != address ==>
            q.emitted == p.emitted + [p.open.value] && q.open == Some(Block(address, rec.payload)))
  {
  }

  /** An End Of File record changes nothing; lines after it are still read. */
  lemma FeedEndOfFile(p: Parser, rec: Record)
    requires rec.kind == END_OF_FILE
    ensures Feed(p, rec) == Running(p)
  {
  }

  /** An Extended Segment Address record hands out and closes the open block,
      then sets the base to its big-endian payload times 16, failing when the
      payload is not two bytes (after the block was handed out). */
  lemma FeedExtendedSegment(p: Parser, rec: Record)
    requires rec.kind == EXTENDED_SEGMENT_ADDRESS
    ensures |rec.payload| == 2 ==>
      Feed(p, rec) == Running(Parser(None, Some(ReadBe16(rec.payload[0], rec.payload[1]) * 16), Flush(p)))
    ensures |rec.payload| != 2 ==> Feed(p, rec) == Halted(Flush(p), BadSegmentPayload)
  {
  }

  /** A Start Segment Address record forgets the base address and nothing else. */
  lemma FeedStartSegment(p: Parser, rec: Record)
    requires rec.kind == START_SEGMENT_ADDRESS
    ensures Feed(p, rec) == Running(p.(base := None))
  {
  }

  /** With no base address a Data record fails, and the open block is lost. */
  lemma FeedDataWithoutBase(p: Parser, rec: Record)
    requires rec.kind == DATA && p.base.None?
    ensures Feed(p, rec) == Halted(p.emitted, NoBaseAddress)
  {
  }

  /** A record type above 3 fails. */
  lemma FeedUnknown(p: Parser, rec: Record)
    requires rec.kind > START_SEGMENT_ADDRESS
    ensures Feed(p, rec) == Halted(p.emitted, UnknownRecordType(rec.kind))
  {
  }

  // ---------------------------------------------------------------------------
  // Whole images

  /** A blank line anywhere among the parsed lines makes no difference. */
  lemma {:induction false} BlankSkipped(p: Parser, before: seq<Result<Line>>, after: seq<Result<Line>>)
    ensures Drive(p, before + [Ok(Blank)] + after) == Drive(p, before + after)
    decreases |before|
  {
    var rs := before + [Ok(Blank)] + after;
    if before == [] {
      assert rs[0] == Ok(Blank) && rs[1..] == after;
      assert StepLine(p, Ok(Blank)) == Running(p);
      assert before + after == after;
    } else {
      assert rs[0] == before[0];
      assert rs[1..] == before[1..] + [Ok(Blank)] + after;
      assert (before + after)[1..] == before[1..] + after;
      match StepLine(p, before[0])
      case Halted(_, _) =>
      case Running(q) =>
        BlankSkipped(q, before[1..], after);
    }
  }

  /** A blank line anywhere in the image makes no difference. */
  lemma BlankLineSkipped(before: seq<string>, blank: string, after: seq<string>)
    requires IsBlank(blank)
    ensures ReadHex(before + [blank] + after) == ReadHex(before + after)
  {
    assert ParseLine(blank) == Ok(Blank);
    assert ParseAll([blank]) == [Ok(Blank)];
    ParseAllAppend(before + [blank], after);
    ParseAllAppend(before, [blank]);
    ParseAllAppend(before, after);
    BlankSkipped(Initial, ParseAll(before), ParseAll(after));
  }

  /** The parsed line holds a record of type `kind`. */
  predicate IsRecordOf(r: Result<Line>, kind: int)
  {
    r.Ok? && r.value.Rec? && r.value.record.kind == kind
  }

  /** Once the base is unknown, a run of End Of File, Start Segment Address and
      Data records without an Extended Segment Address record fails at its
      first Data record, and no block is handed out on the way. */
  lemma {:induction false} DataNeedsBase(p: Parser, rs: seq<Result<Line>>)
    requires p.base.None?
    requires forall i | 0 <= i < |rs| ::
      IsRecordOf(rs[i], DATA) || IsRecordOf(rs[i], END_OF_FILE) || IsRecordOf(rs[i], START_SEGMENT_ADDRESS)
    requires exists i | 0 <= i < |rs| :: IsRecordOf(rs[i], DATA)
    ensures Drive(p, rs) == Image(p.emitted, Some(NoBaseAddress))
    decreases |rs|
  {
    var rec := rs[0].value.record;
    if rec.kind == DATA {
      FeedDataWithoutBase(p, rec);
    } else {
      assert Feed(p, rec) == Running(p);
      var i :| 0 <= i < |rs| && IsRecordOf(rs[i], DATA);
      assert i > 0;
      assert IsRecordOf(rs[1..][i - 1], DATA);
      DataNeedsBase(p, rs[1..]);
    }
  }

  /** The line text of a Data record with a 16-bit offset. */
  function DataLine(offset: int, payload: seq<byte>, checksum: byte): string
    requires 0 <= offset < U16_LIMIT && |payload| < 256
  {
    FormatLine(RecordBytes(Record(|payload|, offset, DATA, payload)), checksum)
  }

  /** Reading three lines that hold the given records, step by step. */
  lemma DriveThree(r1: Result<Line>, r2: Result<Line>, r3: Result<Line>, p0: Parser, p1: Parser, p2: Parser, p3: Parser)
    requires StepLine(p0, r1) == Running(p1)
    requires StepLine(p1, r2) == Running(p2)
    requires StepLine(p2, r3) == Running(p3)
    ensures Drive(p0, [r1, r2, r3]) == Image(Flush(p3), None)
  {
    assert [r1, r2, r3][1..] == [r2, r3];
    assert [r2, r3][1..] == [r3];
    assert [r3][1..] == [];
    assert Drive(p0, [r1, r2, r3]) == Drive(p1, [r2, r3]);
    assert Drive(p1, [r2, r3]) == Drive(p2, [r3]);
    assert Drive(p2, [r3]) == Drive(p3, []);
  }

  /** Two 16-byte Data records at 0x00 and 0x10 make one 32-byte block at 0x00. */
  lemma ContiguousRecordsJoin(d1: seq<byte>, d2: seq<byte>, c1: byte, c2: byte)
    requires |d1| == 16 && |d2| == 16
    ensures ReadHex([DataLine(0x00, d1, c1), DataLine(0x10, d2, c2)]) == Image([Block(0x00, d1 + d2)], None)
  {
    var l1, l2 := DataLine(0x00, d1, c1), DataLine(0x10, d2, c2);
    var s1, s2 := Record(16, 0x00, DATA, d1), Record(16, 0x10, DATA, d2);
    var r1, r2 := Ok(Rec(s1)), Ok(Rec(s2));
    assert ParseAll([l1, l2]) == [r1, r2] by {
      ParseRecordLine(s1, c1);
      ParseRecordLine(s2, c2);
      ParseTwo(l1, l2);
    }
    var p1 := Parser(Some(Block(0, d1)), Some(0), []);
    assert StepLine(Initial, r1) == Running(p1) by {
      FeedData(Initial, s1);
    }
    var p2 := Parser(Some(Block(0, d1 + d2)), Some(0), []);
    assert StepLine(p1, r2) == Running(p2) by {
      FeedData(p1, s2);
    }
    assert [r1, r2][1..] == [r2];
    assert [r2][1..] == [];
    assert Drive(Initial, [r1, r2]) == Drive(p1, [r2]);
    assert Drive(p1, [r2]) == Drive(p2, []);
  }

  /** A third 16-byte Data record at 0x40 leaves a gap, so it starts a second block. */
  lemma GapStartsNewBlock(d1: seq<byte>, d2: seq<byte>, d3: seq<byte>, c1: byte, c2: byte, c3: byte)
    requires |d1| == 16 && |d2| == 16 && |d3| == 16
    ensures ReadHex([DataLine(0x00, d1, c1), DataLine(0x10, d2, c2), DataLine(0x40, d3, c3)])
         == Image([Block(0x00, d1 + d2), Block(0x40, d3)], None)
  {
    var l1, l2, l3 := DataLine(0x00, d1, c1), DataLine(0x10, d2, c2), DataLine(0x40, d3, c3);
    var s1, s2, s3 := Record(16, 0x00, DATA, d1), Record(16, 0x10, DATA, d2), Record(16, 0x40, DATA, d3);
    var r1, r2, r3 := Ok(Rec(s1)), Ok(Rec(s2)), Ok(Rec(s3));
    assert ParseAll([l1, l2, l3]) == [r1, r2, r3] by {
      ParseRecordLine(s1, c1);
      ParseRecordLine(s2, c2);
      ParseRecordLine(s3, c3);
      ParseThree(l1, l2, l3);
    }
    var p1 := Parser(Some(Block(0, d1)), Some(0), []);
    assert StepLine(Initial, r1) == Running(p1) by {
      FeedData(Initial, s1);
    }
    var p2 := Parser(Some(Block(0, d1 + d2)), Some(0), []);
    assert StepLine(p1, r2) == Running(p2) by {
      FeedData(p1, s2);
    }
    var p3 := Parser(Some(Block(0x40, d3)), Some(0), [Block(0, d1 + d2)]);
    assert StepLine(p2, r3) == Running(p3) by {
      FeedData(p2, s3);
    }
    DriveThree(r1, r2, r3, Initial, p1, p2, p3);
  }

  /** A Start Segment Address record followed by a Data record fails instead
      of placing the data at base 0. */
  lemma StartSegmentThenDataFails(start: seq<byte>, d: seq<byte>, c1: byte, c2: byte)
    requires |start| == 4 && 0 < |d| < 256
    ensures ReadHex([FormatLine(RecordBytes(Record(4, 0, START_SEGMENT_ADDRESS, start)), c1), DataLine(0, d, c2)])
         == Image([], Some(NoBaseAddress))
  {
    var s1, s2 := Record(4, 0, START_SEGMENT_ADDRESS, start), Record(|d|, 0, DATA, d);
    var l1, l2 := FormatLine(RecordBytes(s1), c1), DataLine(0, d, c2);
    ParseRecordLine(s1, c1);
    ParseRecordLine(s2, c2);
    var r1, r2 := Ok(Rec(s1)), Ok(Rec(s2));
    ParseTwo(l1, l2);
    var p1 := Parser(None, None, []);
    FeedStartSegment(Initial, s1);
    assert StepLine(Initial, r1) == Running(p1);
    assert StepLine(p1, r2) == Halted([], NoBaseAddress);
    assert [r1, r2][1..] == [r2];
    assert Drive(Initial, [r1, r2]) == Drive(p1, [r2]);
  }
}

=== FILE: pages.dfy ===
/** Contiguous runs of firmware bytes and their division into page-sized
    write units (`Block` and `Block.split_pages` in dfu.py). */
module Pages {
  import opened Bytes

  /** Firmware bytes `data` occupying the addresses from `address` on, without gaps. */
  datatype Block = Block(address: int, data: seq<byte>)

  /** The first address after the block. */
  function End(b: Block): int
  {
    b.address + |b.data|
  }

  /** The data of each block, in order. */
  function Contents(blocks: seq<Block>): (r: seq<seq<byte>>)
    ensures |r| == |blocks|
    ensures forall k | 0 <= k < |blocks| :: r[k] == blocks[k].data
  {
    seq(|blocks|, k requires 0 <= k < |blocks| => blocks[k].data)
  }

  lemma FlattenContentsCons(blocks: seq<Block>)
    requires blocks != []
    ensures Flatten(Contents(blocks)) == blocks[0].data + Flatten(Contents(blocks[1..]))
  {
    assert Contents(blocks) == [blocks[0].data] + Contents(blocks[1..]);
    FlattenCons(blocks[0].data, Contents(blocks[1..]));
  }

  /** `split_pages(pageSize)`: a block no longer than a page is its own single
      unit; a longer one is cut into `ceil(len / pageSize)` units, unit `k`
      starting `k` pages after the block, each at most a page long and all but
      the last exactly a page long. */
  function SplitPages(b: Block, pageSize: nat): (units: seq<Block>)
    requires pageSize > 0
    ensures |b.data| <= pageSize ==> units == [b]
    ensures |b.data| > pageSize ==> |units| == CeilDiv(|b.data|, pageSize)
    ensures forall k | 0 <= k < |units| :: |units[k].data| <= pageSize
    ensures forall k | 0 <= k < |units| - 1 :: |units[k].data| == pageSize
    ensures forall k | 0 <= k < |units| :: units[k].address == b.address + k * pageSize
  {
    if |b.data| <= pageSize then [b]
    else
      var cs := Chunks(b.data, pageSize);
      seq(|cs|, k requires 0 <= k < |cs| => Block(b.address + k * pageSize, cs[k]))
  }

  /** The units' data, concatenated in order, is the block's data. */
  lemma SplitPagesConserves(b: Block, pageSize: nat)
    requires pageSize > 0
    ensures Flatten(Contents(SplitPages(b, pageSize))) == b.data
  {
    var units := SplitPages(b, pageSize);
    if |b.data| <= pageSize {
      assert Contents(units) == [b.data];
      assert Flatten([b.data]) == b.data + Flatten([]);
    } else {
      assert Contents(units) == Chunks(b.data, pageSize);
      FlattenChunks(b.data, pageSize);
    }
  }

  /** Each unit of a long block holds exactly the bytes its address names:
      unit `k` is `data[k * pageSize : (k + 1) * pageSize]`, so no unit spills
      past its own page-sized stride. */
  lemma SplitPagesSlices(b: Block, pageSize: nat, k: nat)
    requires pageSize > 0
    requires |b.data| > pageSize
    requires k < |SplitPages(b, pageSize)|
    ensures k * pageSize < |b.data|
    ensures SplitPages(b, pageSize)[k].data == b.data[k * pageSize .. Min(k * pageSize + pageSize, |b.data|)]
  {
    ChunkAt(b.data, pageSize, k);
  }

  /** A 2050-byte block on 1024-byte pages becomes units of 1024, 1024 and 2 bytes. */
  lemma SplitPagesExample(b: Block)
    requires |b.data| == 2050
    ensures |SplitPages(b, 1024)| == 3
    ensures |SplitPages(b, 1024)[0].data| == 1024
    ensures |SplitPages(b, 1024)[1].data| == 1024
    ensures |SplitPages(b, 1024)[2].data| == 2
    ensures SplitPages(b, 1024)[2].address == b.address + 2048
  {
    assert CeilDiv(2, 1024) == 1;
    assert CeilDiv(1026, 1024) == 2;
    assert CeilDiv(2050, 1024) == 3;
    var units := SplitPages(b, 1024);
    SplitPagesConserves(b, 1024);
    assert Contents(units) == [units[0].data, units[1].data, units[2].data];
    var c := Contents(units);
    assert Flatten(c[2..]) == units[2].data + Flatten([]);
    assert Flatten(c[1..]) == units[1].data + Flatten(c[2..]);
    assert Flatten(c) == units[0].data + Flatten(c[1..]);
  }
}

=== FILE: updater.dfy ===
/** The update itself (`write_hex` and the single-command requests of
    `FirmwareUpdater` in dfu.py): every block the reader hands out is cut into
    pages, and every page is erased, filled and committed, in order, stopping
    at the first exception. Because the reader is a generator, the blocks it
    handed out before an exception in a later line have already been written
    when that exception surfaces. */
module Updater {
  import opened Bytes
  import opened Errors
  import opened DeviceInfo
  import opened Pages
  import opened IntelHex
  import opened Commands
  import opened Channel

  /** One page unit of `write_hex`: its page number (failing when the unit does
      not start on a page boundary, before anything is written for it), then
      its erase, fill and commit. */
  function PageTrace(info: Info, unit: Block, mode: Mode): (t: Trace)
    ensures unit.address % info.pageSize != 0 ==> t == Trace([], Some(NotPageAligned))
    ensures unit.address % info.pageSize == 0 ==> t == PageOps(unit, unit.address / info.pageSize, mode)
    ensures t.fault.None? ==> unit.address % info.pageSize == 0
  {
    match PageNumber(info, unit.address)
    case Err(f) => Trace([], Some(f))
    case Ok(pageNumber) => PageOps(unit, pageNumber, mode)
  }

  /** The pages of one block, in order, up to the first that fails. */
  function UnitsTrace(info: Info, units: seq<Block>, mode: Mode): Trace
    decreases |units|
  {
    if units == [] then Trace([], None)
    else Then(PageTrace(info, units[0], mode), UnitsTrace(info, units[1..], mode))
  }

  /** The blocks, in order, each cut into pages of the device's page size. */
  function BlocksTrace(info: Info, blocks: seq<Block>, mode: Mode): Trace
    decreases |blocks|
  {
    if blocks == [] then Trace([], None)
    else Then(UnitsTrace(info, SplitPages(blocks[0], info.pageSize), mode), BlocksTrace(info, blocks[1..], mode))
  }

  /** `write_hex` over the lines of an image: the writes of every block the
      reader handed out, then the reader's own exception, if it raised one. */
  function WriteHexTrace(info: Info, lines: seq<string>, mode: Mode): (t: Trace)
    ensures var image := ReadHex(lines);
      && t.ops == BlocksTrace(info, image.blocks, mode).ops
      && (t.fault.None? <==> image.fault.None? && BlocksTrace(info, image.blocks, mode).fault.None?)
      && (BlocksTrace(info, image.blocks, mode).fault.None? ==> t.fault == image.fault)
    ensures BlocksTrace(info, ReadHex(lines).blocks, mode).fault.Some? ==>
      t == BlocksTrace(info, ReadHex(lines).blocks, mode)
  {
    var image := ReadHex(lines);
    Then(BlocksTrace(info, image.blocks, mode), Trace([], image.fault))
  }

  /** A page written without error in fast mode carries its data exactly. */
  lemma PageTraceConservesFast(info: Info, unit: Block)
    requires PageTrace(info, unit, Fast).fault.None?
    ensures Flatten(Payloads(PageTrace(info, unit, Fast).ops)) == unit.data
  {
    var pageNumber := PageNumber(info, unit.address).value;
    PageOpsConserveFast(unit, pageNumber);
  }

  lemma {:induction false} UnitsTraceConservesFast(info: Info, units: seq<Block>)
    requires UnitsTrace(info, units, Fast).fault.None?
    ensures Flatten(Payloads(UnitsTrace(info, units, Fast).ops)) == Flatten(Contents(units))
    decreases |units|
  {
    if units != [] {
      var head := PageTrace(info, units[0], Fast);
      var tail := UnitsTrace(info, units[1..], Fast);
      assert UnitsTrace(info, units, Fast) == Then(head, tail);
      assert head.fault.None? && tail.fault.None?;
      PageTraceConservesFast(info, units[0]);
      UnitsTraceConservesFast(info, units[1..]);
      PayloadsAppend(head.ops, tail.ops);
      FlattenContentsCons(units);
    }
  }

  lemma {:induction false} BlocksTraceConservesFast(info: Info, blocks: seq<Block>)
    requires BlocksTrace(info, blocks, Fast).fault.None?
    ensures Flatten(Payloads(BlocksTrace(info, blocks, Fast).ops)) == Flatten(Contents(blocks))
    decreases |blocks|
  {
    if blocks != [] {
      var units := SplitPages(blocks[0], info.pageSize);
      var head := UnitsTrace(info, units, Fast);
      var tail := BlocksTrace(info, blocks[1..], Fast);
      assert BlocksTrace(info, blocks, Fast) == Then(head, tail);
      assert head.fault.None? && tail.fault.None?;
      UnitsTraceConservesFast(info, units);
      SplitPagesConserves(blocks[0], info.pageSize);
      BlocksTraceConservesFast(info, blocks[1..]);
      PayloadsAppend(head.ops, tail.ops);
      FlattenContentsCons(blocks);
    }
  }

  /** End to end in fast mode: an update that raises nothing sends, through the
      buffer characteristic and in order, exactly the payloads of the image's
      Data records. */
  lemma WriteHexConservesFast(info: Info, lines: seq<string>)
    requires WriteHexTrace(info, lines, Fast).fault.None?
    ensures Flatten(Payloads(WriteHexTrace(info, lines, Fast).ops)) == DataBytes(ParseAll(lines))
  {
    var image := ReadHex(lines);
    var t := BlocksTrace(info, image.blocks, Fast);
    assert t.fault.None? && image.fault.None?;
    assert WriteHexTrace(info, lines, Fast).ops == t.ops + [] == t.ops;
    BlocksTraceConservesFast(info, image.blocks);
  }

  /** Every page an update writes without error starts on a page boundary. */
  lemma {:induction false} UnitsTraceAligned(info: Info, units: seq<Block>, mode: Mode)
    requires UnitsTrace(info, units, mode).fault.None?
    ensures forall k | 0 <= k < |units| :: units[k].address % info.pageSize == 0
    decreases |units|
  {
    if units != [] {
      UnitsTraceAligned(info, units[1..], mode);
      forall k | 0 <= k < |units|
        ensures units[k].address % info.pageSize == 0
      {
        if k > 0 {
          assert units[k] == units[1..][k - 1];
        }
      }
    }
  }

  /** A planned update run against the transport and the device: the writes
      go out in order until one fails, and the update fails with the first
      exception, whether a write raised it or the plan itself did after its
      last write. */
  method RunTrace(t: Trace, env: nat -> OpEnv) returns (issued: nat, fault: Option<Fault>)
    ensures issued <= |t.ops|
    ensures forall k | 0 <= k < issued && !(fault.Some? && k == issued - 1) :: Execute(t.ops[k], env(k)).None?
    ensures fault.None? <==> t.fault.None? && issued == |t.ops| && forall k | 0 <= k < |t.ops| :: Execute(t.ops[k], env(k)).None?
    ensures fault.Some? ==>
      if 0 < issued && Execute(t.ops[issued - 1], env(issued - 1)).Some?
      then fault == Execute(t.ops[issued - 1], env(issued - 1))
      else issued == |t.ops| && fault == t.fault
  {
    issued, fault := RunOps(t.ops, env);
    if fault.None? {
      fault := t.fault;
    }
  }

  /** `write_hex` run against the transport and the device: the writes of the
      image's pages go out in order until one fails, and the update fails with
      the first exception, whether it came from a write, from a page address,
      from packing a command or from reading the image. */
  method Flash(info: Info, lines: seq<string>, mode: Mode, env: nat -> OpEnv) returns (issued: nat, fault: Option<Fault>)
    ensures var t := WriteHexTrace(info, lines, mode);
      && issued <= |t.ops|
      && (forall k | 0 <= k < issued && !(fault.Some? && k == issued - 1) :: Execute(t.ops[k], env(k)).None?)
      && (fault.None? <==> t.fault.None? && issued == |t.ops| && forall k | 0 <= k < |t.ops| :: Execute(t.ops[k], env(k)).None?)
      && (fault.Some? ==>
            if 0 < issued && Execute(t.ops[issued - 1], env(issued - 1)).Some?
            then fault == Execute(t.ops[issued - 1], env(issued - 1))
            else issued == |t.ops| && fault == t.fault)
  {
    issued, fault := RunTrace(WriteHexTrace(info, lines, mode), env);
  }

  /** The single-command requests of the command line. */
  datatype Request = ResetRequest | EraseAppRequest | PingRequest | StartRequest

  /** The write each request makes: Reset and Start unconfirmed, Ping
      confirmed, and an unconfirmed erase of the page the application starts
      on (which fails if the application start is not page-aligned). */
  function RequestOp(info: Info, request: Request): (r: Result<Op>)
    ensures r.Ok? ==> r.value.target == CallCharacteristic
    ensures r.Ok? ==> (r.value.confirmed <==> request == PingRequest)
    ensures request == ResetRequest ==> r == Ok(Op(CallCharacteristic, [COMMAND_RESET], false))
    ensures request == PingRequest ==> r == Ok(Op(CallCharacteristic, [COMMAND_PING], true))
    ensures request == StartRequest ==> r == Ok(Op(CallCharacteristic, [COMMAND_START], false))
    ensures request == EraseAppRequest ==>
      (r.Ok? <==> info.appStart % info.pageSize == 0 && info.appStart / info.pageSize < U16_LIMIT)
    ensures request == EraseAppRequest && info.appStart % info.pageSize != 0 ==> r == Err(NotPageAligned)
    ensures request == EraseAppRequest && r.Ok? ==>
      r.value == Op(CallCharacteristic, [COMMAND_ERASE_PAGE, 0] + Le16(info.appStart / info.pageSize), false)
    ensures request == EraseAppRequest && info.appStart % info.pageSize == 0 && r.Err? ==> r.fault == FieldOverflow
  {
    match request
    case ResetRequest => Ok(Op(CallCharacteristic, Encode(Reset).value, false))
    case PingRequest => Ok(Op(CallCharacteristic, Encode(Ping).value, true))
    case StartRequest => Ok(Op(CallCharacteristic, Encode(Start).value, false))
    case EraseAppRequest =>
      match PageNumber(info, info.appStart)
      case Err(f) => Err(f)
      case Ok(page) =>
        match Encode(ErasePage(page))
        case Err(f) => Err(f)
        case Ok(bytes) => Ok(Op(CallCharacteristic, bytes, false))
  }

  /** For geometry decoded from a record, the erase request always packs and
      erases exactly the record's application start page. */
  lemma EraseAppTargetsAppStart(m: Metadata)
    requires WellFormed(m)
    ensures RequestOp(Derive(m), EraseAppRequest) == Ok(Op(CallCharacteristic, [COMMAND_ERASE_PAGE, 0] + Le16(m.appStartPage), false))
  {
    var info := Derive(m);
    PageNumberOfPageStart(info, m.appStartPage);
  }
}
